=== FILE: README.md ===
# Product catalog service: tokens, access decisions, accounts and catalog store

A Dafny model of the decidable core of a Spring Boot CRUD service for
products and categories, protected by HS256 bearer tokens and role-based
authorization. It has three parts:

- **Tokens** (`jwt.dfy`, module `Jwt`): what `JwtUtil` does. It issues a token
  for a username and a role list with a two-minute lifetime. It extracts the
  subject, the roles and the expiry under the process key, and it validates a
  token against a user. The compact encoding and the MAC are abstracted: a
  token records the key that signed it, and verification under a key succeeds
  exactly when it is that key.
- **Access decision** (`routes.dfy`, `security.dfy`, `errors.dfy`): a pure
  function from the method, the path and the optional identity to Allow, 401,
  403 or 400. It combines the ordered URL rules of `SecurityConfig`, the request
  mappings and `@PreAuthorize` requirements of the two catalog controllers,
  the conversion of path variables, and the records that
  `JwtAccessDeniedHandler` and `GlobalExceptionHandler` write.
- **Identity flows and catalog store** (`users.dfy`, `userapi.dfy`,
  `categories.dfy`, `products.dfy`):
  - `UserMapper`, the two lookups of `CustomUserDetailsService`, and
    registration in `MyUserDetailsServiceImpl`;
  - the password check `SecurityConfig` wires from those lookups and BCrypt;
  - the register and login flows of `UserController`;
  - `CategoryServiceImpl` and `ProductServiceImpl` over tables held as maps
    from id to row.
- **Support** (`wrappers.dfy`, `text.dfy`, `tables.dfy`): `Option` and
  `Result`; decimal text of integers in both directions, with Java's `int`
  and `long` ranges; Java's whitespace test; and the find-all-then-map
  listing of a table.

Modelling conventions:

- Java `null` is `Option.None`. A thrown exception is `Result.Err` carrying
  the exception class and its message.
- Clock readings are explicit `nat` parameters in milliseconds, one per read
  of the clock in the source. `generateToken` reads the clock twice.
  `validateToken` parses the token twice and then reads the clock again.
- BCrypt's random salt is a parameter. A BCrypt hash is abstracted as the
  pair (salt, password). That makes encoding one-to-one in the password, and
  a match recomputes it. Nothing else about hashing is assumed.
- The Double price is kept as its 64-bit pattern. It is copied, never
  computed on.
- Paths are the request URI split at `/`. The pattern `/api/**` matches every
  path whose first segment is `api`.
- Two behaviours of the JJWT library are modelled because the source depends
  on them:
  - JWT dates are NumericDates (section 2 of RFC 7519), stored in whole
    seconds. So the expiry read back is the issuance clock plus 120 000 ms,
    truncated to the second.
  - `parseClaimsJws` itself rejects a token whose `exp` is before the
    parse-time clock (zero skew), by throwing `ExpiredJwtException`.
  - The builder's `setSubject`, called first on a fresh builder, stores the
    subject only when it has a character that is not Java whitespace
    (`Strings.hasText`). Otherwise the token has no `sub` and `getSubject()`
    answers null.
- Spring's `DaoAuthenticationProvider` reports an unknown user as
  `BadCredentialsException("Bad credentials")`, the same exception as for a
  wrong password. The login model reproduces that.
- If method security denies an anonymous caller, Spring sends the caller to
  the authentication entry point (401). If it denies an authenticated caller,
  Spring calls the access-denied handler (403).

Behaviours of the code worth noting:

- Every GET under `/api` is public, including every read handler and `/api`
  itself.
- Validation has no separate "expired" answer. A token the library refuses
  (malformed, foreign signature, expired) makes `validateToken` throw,
  modelled as `Err`. `false` comes back in two cases: the subject names
  another user, or the subject matches but the token expires between the
  expiry parse and the final clock reading.
- Issuing a token accepts any username. For an empty or all-whitespace
  username the token carries no subject, and `validateToken` then throws a
  `NullPointerException` on `username.equals`, for every user.
- A path variable is converted before the handler's `@PreAuthorize` runs.
  A restricted request whose id does not convert to the declared `Integer`
  or `Long` is answered 400 whatever the caller's authorities, so it never
  reaches the 403 record.

## Model

| member | source | states |
|---|---|---|
| Jwt.GenerateToken | src/main/java/com/categories/product/security/JwtUtil.java:29-38 | the token is signed with the process key and carries the given role list unchanged; it carries the username as subject exactly when the name has a non-whitespace character, and no subject otherwise; iat is the first clock reading and exp the second reading plus 120 000 ms, each truncated to whole seconds |
| Jwt.NumericDateRoundTrip | src/main/java/com/categories/product/security/JwtUtil.java:34-35 | a date stored as a NumericDate comes back at most 999 ms early and never late |
| Jwt.ParseClaimsJws | src/main/java/com/categories/product/security/JwtUtil.java:59-64 | parsing succeeds iff the token is well formed, is signed with the process key and its expiry is not before the parse clock; then it yields the token's claims; garbled text fails as malformed, a foreign key as an invalid signature, and a correctly signed token whose expiry is before the parse clock as expired, carrying its claims |
| Jwt.ExtractClaim | src/main/java/com/categories/product/security/JwtUtil.java:59-66 | claim extraction succeeds exactly when parsing does, and returns the resolver applied to the token's claims |
| Jwt.ExtractUsername | src/main/java/com/categories/product/security/JwtUtil.java:47-49 | the subject claim of a token that parses, null when it has none; the parser's own error otherwise |
| Jwt.ExtractExpiration | src/main/java/com/categories/product/security/JwtUtil.java:51-53 | the exp claim as a Date in milliseconds, always a whole second equal to the stored NumericDate; the parser's own error otherwise |
| Jwt.ExtractRoles | src/main/java/com/categories/product/security/JwtUtil.java:55-57 | the "roles" claim of a token that parses, unchanged; the parser's own error otherwise |
| Jwt.IsTokenExpired | src/main/java/com/categories/product/security/JwtUtil.java:68-70 | when the token parses, the answer is true iff its expiry is strictly before the later clock reading; otherwise the parse error escapes |
| Jwt.ValidateToken | src/main/java/com/categories/product/security/JwtUtil.java:41-44 | acceptance implies the token is signed with the process key, names the given user and has not expired at the final clock reading; a parseable token naming another user is rejected with false; one without a subject throws the NullPointerException; one naming the user gives the second parse's error if that parse fails, and otherwise true iff the final clock reading is not after the expiry; a token the first parse refuses escapes as that parse error, never as false |
| Jwt.ValidateAcceptsLiveToken | src/main/java/com/categories/product/security/JwtUtil.java:41-44 | conversely, a token signed with the process key, naming the user and unexpired is accepted whenever the clock readings are taken in order |
| Jwt.ExpiryInstantIsNotExpired | src/main/java/com/categories/product/security/JwtUtil.java:68-70 | "before" is strict: at exactly its expiry instant a token is not expired, one millisecond later it is |
| Jwt.IssuedClaimsRoundTrip | src/main/java/com/categories/product/security/JwtUtil.java:29-57 | within its lifetime, extracting the roles from a freshly issued token gives back the same role list, in order, and extracting the subject gives back the username when it has a non-whitespace character and null otherwise |
| Jwt.ForeignKeyRejected | src/main/java/com/categories/product/security/JwtUtil.java:59-64 | a token issued under one key fails signature verification under any other key |
| Jwt.IssuedLifetime | src/main/java/com/categories/product/security/JwtUtil.java:30-35 | the expiry read back lies in the last second up to issuance + 120 000 ms, equals it when the clock reading is a whole second, and a parse after that instant fails as expired |
| Jwt.IssuedTokenValidity | src/main/java/com/categories/product/security/JwtUtil.java:29-70 | a token freshly issued for a name with a non-whitespace character validates for that user up to 119 000 ms after the expiry clock reading; no issued token validates after issuance + 120 000 ms; a token issued for a blank name never validates, and within its lifetime validation throws the NullPointerException |
| Errors.AccessDenied | src/main/java/com/categories/product/security/JwtAccessDeniedHandler.java:25-38 | a denial is answered 403, the body repeats 403, its message is always "Access Denied" and its path is the request URI |
| Errors.HandleException | src/main/java/com/categories/product/exception/GlobalExceptionHandler.java:15-58 | exactly the three handled exception classes produce a record: category-exists gives 409, category-not-found and user-not-found give 404; the body repeats the status, names the request URI and keeps the exception message unchanged; no record uses the 403 of an authorization denial |
| Users.MatchesIffEncodedFrom | src/main/java/com/categories/product/security/SecurityConfig.java:83-86 | a password check succeeds iff the stored value is an encoding of the submitted password under some salt |
| Users.ToEntity | src/main/java/com/categories/product/mapper/UserMapper.java:13-24 | null maps to null; otherwise username and password are copied unchanged, no id is set, and the role is the request's when present and SELLER otherwise |
| Users.ToResponseDto | src/main/java/com/categories/product/mapper/UserMapper.java:27-40 | null maps to null; otherwise id and username are copied, the token is unset, a role gives exactly the list ["ROLE_" + its name] and no role leaves the roles unset |
| Users.LoadUserByUsername | src/main/java/com/categories/product/serviceImpl/CustomUserDetailsService.java:23-33 | fails with UsernameNotFoundException("Username not found") iff the name is absent; otherwise returns a principal wrapping the stored user; the store is only read |
| Users.GetUserEntityByUsername | src/main/java/com/categories/product/serviceImpl/CustomUserDetailsService.java:35-39 | fails with UserNotFoundException("User not found") iff the name is absent; otherwise returns the stored user; the store is only read |
| Users.RegisterUser | src/main/java/com/categories/product/serviceImpl/MyUserDetailsServiceImpl.java:24-31 | a null request fails; otherwise exactly one user is added, holding the encoding of the submitted password (not the plaintext), the request's name and the defaulted role; the response carries its new id and the roles ["ROLE_" + stored role] |
| Users.Save | src/main/java/com/categories/product/serviceImpl/MyUserDetailsServiceImpl.java:30 | saving a user whose name is taken fails, since the store is keyed by username (an assumption listed under Left out); otherwise the user gets the next id and is filed under its name, with every other user untouched |
| Users.RegisterPreservesValid | src/main/java/com/categories/product/serviceImpl/MyUserDetailsServiceImpl.java:27-30 | registration keeps every stored user filed under its own name with a distinct id, a role and an encoded password |
| Users.Authenticate | src/main/java/com/categories/product/security/SecurityConfig.java:91-99 | authentication succeeds iff the user exists and the password matches the stored hash; an unknown user and a wrong password fail with the identical BadCredentials error |
| Users.RegisteredUserAuthenticates | src/main/java/com/categories/product/serviceImpl/MyUserDetailsServiceImpl.java:27-30 | right after registration, authentication succeeds with the registered password and with no other |
| UserApi.WithDefaultRoles | src/main/java/com/categories/product/controller/UserController.java:50-53 | null or empty roles become ["ROLE_SELLER"]; non-empty roles are left alone; nothing else changes |
| UserApi.Register | src/main/java/com/categories/product/controller/UserController.java:43-71 | fails iff the username is taken (under the keyed-store assumption listed under Left out); on success the store is the registration's, the reply is 201, and its roles are the reloaded user's authorities (overwriting any default) with a token issued for the reloaded username and exactly those roles |
| UserApi.Login | src/main/java/com/categories/product/controller/UserController.java:74-111 | without successful authentication the reply is the BadCredentials failure and no token exists; on success the reply is 200 with the id of the user found by the authenticated name, that name, its authorities and a token for that name and those authorities |
| UserApi.LoginSucceedsIffPasswordMatches | src/main/java/com/categories/product/controller/UserController.java:80-110 | on a well-formed store login succeeds exactly for a known user with the right password; the token carries the user's authorities and names the user exactly when the name has a non-whitespace character |
| UserApi.RegisterThenLogin | src/main/java/com/categories/product/controller/UserController.java:43-111 | a newly registered user can log in; with role-derived authorities a request without a role yields ["ROLE_SELLER"]; login reports the same roles; within its lifetime the token validates for a user whose name has a non-whitespace character, and validation throws the NullPointerException for a blank name |
| Routes.RequiredAuthority | src/main/java/com/categories/product/controller/ProductController.java:39-107 | ROLE_ADMIN is required exactly on category create and delete, ROLE_SELLER exactly on product create, update and delete, and nothing on the reads, registration or login |
| Routes.Route | src/main/java/com/categories/product/controller/CategoryController.java:24-86 | the chosen handler's mapping accepts the request's method and its path fits the mapping's pattern (the controller prefix, then literal segments and non-empty variables); when no handler is chosen, no mapping accepts the request; the table holds the category, product and user mappings, and the product ones are cited under Routes.ProductControllerGates |
| Routes.RouteFindsMapping | src/main/java/com/categories/product/controller/ProductController.java:22-113 | conversely, a request that fits a mapping's method and pattern is dispatched to that mapping's handler |
| Routes.MappingsDisjoint | src/main/java/com/categories/product/controller/ProductController.java:22-113 | no request fits two mappings, so dispatch is never ambiguous |
| Routes.SuccessStatus | src/main/java/com/categories/product/controller/CategoryController.java:44-61 | a completed call answers 201 exactly for category, product and user creation, and 200 otherwise; the product statuses are cited under Routes.ProductControllerGates and the user ones under UserApi.Register and UserApi.Login |
| Routes.ProductControllerGates | src/main/java/com/categories/product/controller/ProductController.java:33-113 | the product mappings reach their handlers for any non-empty id; create, update and delete require ROLE_SELLER; the three reads require nothing; create answers 201, update and delete 200; the product id converts to Integer and the listing's category id to Long |
| Routes.CategoryControllerGates | src/main/java/com/categories/product/controller/CategoryController.java:36-86 | the category mappings reach their handlers for any non-empty id; create and delete require ROLE_ADMIN; the reads require nothing; create answers 201, delete 200; PUT reaches no handler; delete takes an Integer id and the lookup a Long |
| Routes.ReadsAreUnrestricted | src/main/java/com/categories/product/controller/ProductController.java:77-113 | every handler reached by GET or HEAD has no authority requirement |
| Routes.RestrictedHandlersAreApiWrites | src/main/java/com/categories/product/controller/CategoryController.java:36-62 | every handler with an authority requirement lies under /api and is reached by a method other than GET or HEAD |
| Security.FirstMatch | src/main/java/com/categories/product/security/SecurityConfig.java:64-69 | returns the index of the first rule, in declaration order, that matches the request; no earlier rule matches; none at all when it returns nothing |
| Security.UrlAccess | src/main/java/com/categories/product/security/SecurityConfig.java:64-69 | the URL rules permit a request iff it is one of register, login and /error, or a GET whose path starts with api; every other request needs an authenticated caller |
| Security.AnyRequestCovered | src/main/java/com/categories/product/security/SecurityConfig.java:68 | the final anyRequest() rule leaves no request unmatched |
| Security.FirstMatchDecides | src/main/java/com/categories/product/security/SecurityConfig.java:64-69 | a request matching a permit rule is permitted whatever follows; authentication is required exactly when neither permit rule matches |
| Security.Decide | src/main/java/com/categories/product/security/SecurityConfig.java:58-69 | 401 only ever goes to an anonymous caller and 403 only to an authenticated one; 400 exactly when a request that got past the URL rules reaches a handler whose path variable does not convert; a refusal comes from the URL rules, the conversion or a handler's authority requirement; an authenticated caller is allowed whenever no handler is reached or the reached handler's arguments convert and it names no authority |
| Security.DenialReply | src/main/java/com/categories/product/security/SecurityConfig.java:58-61 | exactly the forbidden requests get the 403 "Access Denied" record naming the request URI |
| Security.PublicUserPaths | src/main/java/com/categories/product/security/SecurityConfig.java:65 | register, login and /error are allowed for everyone, by any method |
| Security.PublicApiReads | src/main/java/com/categories/product/security/SecurityConfig.java:67 | every GET under /api is open whatever the identity: it is allowed, or answered 400 exactly when it reaches a handler whose id does not convert |
| Security.ApiWritesNeedIdentity | src/main/java/com/categories/product/security/SecurityConfig.java:67-68 | any non-GET request under /api without an identity gets 401 |
| Security.UnpermittedNeedsIdentity | src/main/java/com/categories/product/security/SecurityConfig.java:68 | a request matching no permit rule gets 401 without an identity; a permitted one gets 401 only from a handler's authority requirement |
| Security.AuthorizeIff | src/main/java/com/categories/product/security/SecurityConfig.java:22 | for an authenticated caller on a restricted handler whose path variable converts: allowed iff the required authority is among the caller's, forbidden iff it is not |
| Security.ConversionPrecedesAuthority | src/main/java/com/categories/product/controller/CategoryController.java:57-59 | an authenticated caller whose path variable does not convert gets 400 whatever authorities it holds, and no 403 record is written |
| Security.CategoryDeleteRequest | src/main/java/com/categories/product/controller/CategoryController.java:57-59 | a DELETE of /api/categories/<id> whose id converts to an Integer reaches deleteCategory with its arguments resolved, the URL rules demand authentication, and its URI is exactly /api/categories/<id> |
| Security.ProductCreateRequest | src/main/java/com/categories/product/controller/ProductController.java:39-40 | a POST of /api/products reaches createProduct and falls under the authenticated() rule |
| Security.SellerGate | src/main/java/com/categories/product/controller/ProductController.java:39-40 | a caller holding only ROLE_SELLER may create a product (201) but gets 403 "Access Denied" on deleting any category whose id converts |
| Security.AdminGate | src/main/java/com/categories/product/controller/CategoryController.java:57-59 | a caller holding only ROLE_ADMIN is refused product creation and may delete any category whose id converts |
| Security.SellerAndAdminGates | src/main/java/com/categories/product/controller/CategoryController.java:57-61 | for any int id, a caller holding only ROLE_SELLER may create a product (201) but gets 403 "Access Denied" on deleting that category; a caller holding only ROLE_ADMIN gets the reverse |
| Categories.CreateCategory | src/main/java/com/categories/product/serviceImpl/CategoryServiceImpl.java:25-52 | fails with CategoryAlreadyExistsException("Category with name <n> already exists") iff a stored category has that name; otherwise adds exactly one row with that name under a fresh id, keeps every other row, and the response reports the saved row |
| Categories.CreatePreservesValid | src/main/java/com/categories/product/serviceImpl/CategoryServiceImpl.java:45-51 | a successful create keeps rows under their own ids below the id counter and grows the table by one |
| Categories.CreatePreservesUniqueNames | src/main/java/com/categories/product/serviceImpl/CategoryServiceImpl.java:28-48 | if category names are unique before a create, they are unique after it |
| Categories.SecondCreateRefused | src/main/java/com/categories/product/serviceImpl/CategoryServiceImpl.java:28-37 | creating the same name twice always fails the second time with the duplicate-name exception |
| Categories.UpdateCategory | src/main/java/com/categories/product/serviceImpl/CategoryServiceImpl.java:56-60 | update answers null and changes nothing |
| Categories.DeleteCategory | src/main/java/com/categories/product/serviceImpl/CategoryServiceImpl.java:63-67 | only the given id is removed; every other row is untouched; deleting an absent id changes nothing |
| Categories.DeletePreservesInvariants | src/main/java/com/categories/product/serviceImpl/CategoryServiceImpl.java:63-67 | deleting keeps rows under their own ids and names unique, and removes exactly one row when the id was stored |
| Categories.ToIntExact | src/main/java/com/categories/product/serviceImpl/CategoryServiceImpl.java:74 | a Long narrows to int iff it is in the 32-bit range, keeping its value; otherwise ArithmeticException("integer overflow") |
| Categories.GetCategoryById | src/main/java/com/categories/product/serviceImpl/CategoryServiceImpl.java:70-77 | an out-of-int-range id fails with the overflow error, an absent id with "No category is found"; otherwise the stored category is reported |
| Categories.GetAllCategories | src/main/java/com/categories/product/serviceImpl/CategoryServiceImpl.java:80-88 | every stored category is listed exactly once: the ids behind the entries are distinct and cover the table, entry i reports row i of that order, and on a well-formed store each entry reports the id it was listed under |
| Categories.GetAfterCreate | src/main/java/com/categories/product/serviceImpl/CategoryServiceImpl.java:45-51 | reading a created category back by its id, when that id fits an int, answers exactly the create's response |
| Categories.GetAfterDelete | src/main/java/com/categories/product/serviceImpl/CategoryServiceImpl.java:63-77 | after a delete, reading that id fails ("No category is found" within the int range) and every other id reads as before |
| Tables.ListAll | src/main/java/com/categories/product/serviceImpl/CategoryServiceImpl.java:82-86 | the find-all-then-map traversal lists every row exactly once: it reports the ids in listing order, distinct and covering the table, and entry i is the image of row i of that order |
| Products.CreateProduct | src/main/java/com/categories/product/serviceImpl/ProductServiceImpl.java:28-48 | fails with CategoryNotFoundException iff the category id is unknown, and then nothing is saved; otherwise one product is added under a fresh id, linked to that category and carrying the request's name, description and price |
| Products.UpdateProduct | src/main/java/com/categories/product/serviceImpl/ProductServiceImpl.java:51-81 | an unknown product fails with "Product not found", an unknown category with "Category not found", and neither changes the table; on success the product takes the request's name, description, price and category, keeps its id, and no other row changes |
| Products.DeleteProduct | src/main/java/com/categories/product/serviceImpl/ProductServiceImpl.java:84-89 | only the given id is removed; every other row is untouched; deleting an absent id changes nothing |
| Products.GetProductById | src/main/java/com/categories/product/serviceImpl/ProductServiceImpl.java:92-98 | fails with "Product not found" iff the id is absent; otherwise reports the stored product |
| Products.GetAllProducts | src/main/java/com/categories/product/serviceImpl/ProductServiceImpl.java:102-108 | every stored product is listed exactly once: the ids behind the entries are distinct and cover the table, entry i reports row i of that order, and on a well-formed table each entry reports the id it was listed under |
| Products.GetAfterCreate | src/main/java/com/categories/product/serviceImpl/ProductServiceImpl.java:28-48 | reading a created product back by its id answers exactly the create's response |
| Products.GetAfterUpdate | src/main/java/com/categories/product/serviceImpl/ProductServiceImpl.java:51-98 | after a successful update, reading the product reports the request's name, description, price and category under the same id, and every other product reads as before |
| Products.GetAfterDelete | src/main/java/com/categories/product/serviceImpl/ProductServiceImpl.java:84-98 | after a delete, reading that id fails with "Product not found" and every other id reads as before |
| Text.IntToDecimal | src/main/java/com/categories/product/serviceImpl/ProductServiceImpl.java:35 | the category id in the not-found message is written in decimal: a minus sign exactly for negative ids, then digits with no leading zero whose value is the magnitude |
| Text.ParseDecimal | src/main/java/com/categories/product/controller/CategoryController.java:59 | a path variable parses exactly when it is an optional '-' or '+' followed by one or more decimal digits; the value is the digits' value, negated after '-' |
| Text.ParseRendersBack | src/main/java/com/categories/product/controller/ProductController.java:84 | parsing a rendered integer, as path-variable conversion does, gives back the same integer |
| Text.NatToDecimal | src/main/java/com/categories/product/serviceImpl/ProductServiceImpl.java:35 | a natural number is written as digits only, without a leading zero, and the digits denote exactly that number |
| Products.GetProductsByCategory | src/main/java/com/categories/product/serviceImpl/ProductServiceImpl.java:111-116 | always the empty list, whatever the category |
| Products.ProductWritesPreserveInvariants | src/main/java/com/categories/product/serviceImpl/ProductServiceImpl.java:34-72 | create, update and delete keep the product table well formed and every product linked to a stored category |

## Left out

- HS256 key generation, signing and the compact JWS encoding: a token records its signing key instead. Constant-time comparison cannot be stated.
- BCrypt hashing itself: a hash is abstracted as (salt, password).
- Users.RegisteredUserAuthenticates: "with no other password" holds of the one-to-one abstraction only. Real BCrypt reads at most the first 72 bytes of a password, so two passwords that agree on those bytes both match.
- The wall clock: each reading is a parameter. The `LocalDateTime.now()` timestamp in error bodies is not modelled.
- `JwtRequestFilter`, `JwtAuthenticationEntryPoint`, `UserPrincipal`, `User`, `Role`, `ProductMapper`, `CategoryMapper` and the user and category repositories are not part of this model.
  - The identity attached to a request is an input to the access decision.
  - A principal's authorities are the parameter `authorities`.
  - The 401 body is not modelled.
  - Mappers are assumed to copy the fields named in the module comments.
- The user store is keyed by username. This is an assumption: the user entity and its table definition are not part of this model. `findByUsername` returning a single user suggests a unique username, and the model takes that to mean saving a second user under a taken name fails as a constraint violation with an unspecified message. Without such a constraint, the program would store the second user.
- Null fields inside a request (username, password, price or category id) are not modelled. Only a null request object is.
- 404 and 405 for unmapped requests: the model only says such requests pass the security layer.
- Request bodies are assumed present and readable. A restricted handler whose `@RequestBody` is missing or malformed answers 400 before its authority check; the model answers it by the authority check.
- Path-variable conversion accepts an optional sign and ASCII decimal digits in the declared type's range. The hexadecimal (`0x`, `#`) forms, surrounding whitespace and non-ASCII digits that Spring's number conversion also accepts are treated as not converting.
- Spring and JPA wiring: CSRF, the session policy, bean construction and the `AuthenticationManager` bean. Account lock, disable and expiry checks of the authentication provider are also left out; every account counts as enabled.
- JPA cascade: deleting a category does not delete its products in the model. So `Products.Linked` is not preserved by `Categories.DeleteCategory`.
- Products.UpdateProduct: the response object is not modelled. Whether it shows the values before or after the update depends on persistence-context identity.
- Categories.CreateCategory: the `products` list in a category response is not modelled.
- Serialization of responses, the OpenAPI metadata and application start-up.
- Concurrency: concurrent requests and thread-safety of the key field.

=== FILE: categories.dfy ===
/** CategoryServiceImpl over the category table. CategoryMapper and the
    category repository are not part of this model: the entity built from a
    request carries its name, the database generates the id, and the
    response reports the id and name of the entity it was built from. */
module Categories {

  import opened Wrappers
  import opened Errors
  import Tables
  import opened Text

  datatype Category = Category(id: int, name: string)

  datatype CategoryRequest = CategoryRequest(name: string)

  datatype CategoryResponse = CategoryResponse(id: int, name: string)

  /** The category table and the next identity value. */
  datatype CategoryStore = CategoryStore(rows: map<int, Category>, nextId: int)

  /** Each row is filed under its own id, and every id was handed out before. */
  ghost predicate Valid(s: CategoryStore) {
    forall k :: k in s.rows ==> s.rows[k].id == k && k < s.nextId
  }

  /** No two stored categories share a name. */
  ghost predicate UniqueNames(s: CategoryStore) {
    forall a, b :: a in s.rows && b in s.rows && s.rows[a].name == s.rows[b].name ==> a == b
  }

  /** categoryRepository.findByName(name).isPresent(). */
  predicate NameTaken(s: CategoryStore, name: string) {
    exists k :: k in s.rows && s.rows[k].name == name
  }

  function ToResponse(c: Category): CategoryResponse {
    CategoryResponse(c.id, c.name)
  }

  /** createCategory: refuse a duplicate name, otherwise save one new row. */
  function CreateCategory(s: CategoryStore, req: CategoryRequest): (r: Result<(CategoryStore, CategoryResponse), AppException>)
    ensures r.Err? <==> exists k :: k in s.rows && s.rows[k].name == req.name
    ensures r.Err? ==>
              r.error == AppException(CategoryAlreadyExists, "Category with name " + req.name + " already exists")
    ensures r.Ok? ==>
              var (s', resp) := r.value;
              && resp.id in s'.rows && s'.rows[resp.id] == Category(resp.id, req.name)
              && resp.name == req.name
              && (forall k :: k in s'.rows ==> k in s.rows || k == resp.id)
              && (forall k :: k in s.rows && k != resp.id ==> k in s'.rows && s'.rows[k] == s.rows[k])
    ensures r.Ok? && Valid(s) ==>
              var (s', resp) := r.value;
              && resp.id !in s.rows
              && s'.rows.Keys == s.rows.Keys + {resp.id}
              && |s'.rows| == |s.rows| + 1
  {
    if NameTaken(s, req.name) then
      Err(AppException(CategoryAlreadyExists, "Category with name " + req.name + " already exists"))
    else
      var saved := Category(s.nextId, req.name);
      Ok((CategoryStore(s.rows[saved.id := saved], s.nextId + 1), ToResponse(saved)))
  }

  /** A successful create keeps the store well-formed and really adds a row. */
  lemma CreatePreservesValid(s: CategoryStore, req: CategoryRequest)
    requires Valid(s)
    ensures CreateCategory(s, req).Ok? ==>
              var s' := CreateCategory(s, req).value.0;
              Valid(s') && |s'.rows| == |s.rows| + 1
  {
  }

  /** Name uniqueness is an invariant of createCategory. */
  lemma CreatePreservesUniqueNames(s: CategoryStore, req: CategoryRequest)
    requires Valid(s) && UniqueNames(s)
    ensures CreateCategory(s, req).Ok? ==> UniqueNames(CreateCategory(s, req).value.0)
  {
    var r := CreateCategory(s, req);
    if r.Ok? {
      var s' := r.value.0;
      assert forall k :: k in s.rows ==> s.rows[k].name != req.name;
      assert forall k :: k in s'.rows && k in s.rows ==> s'.rows[k] == s.rows[k];
    }
  }

  /** A refused create leaves the store as it was: the caller keeps `s`. And
      creating twice with the same name always fails the second time. */
  lemma SecondCreateRefused(s: CategoryStore, req: CategoryRequest)
    ensures CreateCategory(s, req).Ok? ==>
              CreateCategory(CreateCategory(s, req).value.0, req) ==
              Err(AppException(CategoryAlreadyExists, "Category with name " + req.name + " already exists"))
  {
    var r := CreateCategory(s, req);
    if r.Ok? {
      var id := r.value.1.id;
      assert id in r.value.0.rows && r.value.0.rows[id].name == req.name;
    }
  }

  /** updateCategory is a stub: it answers null and changes nothing. */
  function UpdateCategory(s: CategoryStore, id: int, req: CategoryRequest): (r: (Option<CategoryResponse>, CategoryStore))
    ensures r.0.None? && r.1 == s
  {
    (None, s)
  }

  /** deleteCategory: deleteById, a no-op for an absent id. */
  function DeleteCategory(s: CategoryStore, id: int): (s': CategoryStore)
    ensures id !in s'.rows && s'.nextId == s.nextId
    ensures forall k :: k != id ==> (k in s'.rows <==> k in s.rows)
    ensures forall k :: k in s'.rows ==> s'.rows[k] == s.rows[k]
    ensures id !in s.rows ==> s' == s
  {
    CategoryStore(s.rows - {id}, s.nextId)
  }

  /** Deleting keeps the store well-formed and names unique, and removes
      exactly one row when the id was stored. */
  lemma DeletePreservesInvariants(s: CategoryStore, id: int)
    ensures Valid(s) ==> Valid(DeleteCategory(s, id))
    ensures UniqueNames(s) ==> UniqueNames(DeleteCategory(s, id))
    ensures id in s.rows ==> |DeleteCategory(s, id).rows| == |s.rows| - 1
  {
  }

  /** Math.toIntExact. */
  function ToIntExact(x: int): (r: Result<int, AppException>)
    ensures r.Ok? <==> IntMin <= x <= IntMax
    ensures r.Ok? ==> r.value == x
    ensures r.Err? ==> r.error == AppException(Arithmetic, "integer overflow")
  {
    if IntMin <= x <= IntMax then Ok(x) else Err(AppException(Arithmetic, "integer overflow"))
  }

  /** getCategoryById(Long id): narrow the id to int, then look it up. */
  function GetCategoryById(s: CategoryStore, id: int): (r: Result<CategoryResponse, AppException>)
    ensures !(IntMin <= id <= IntMax) ==> r == Err(AppException(Arithmetic, "integer overflow"))
    ensures IntMin <= id <= IntMax && id !in s.rows ==> r == Err(AppException(Runtime, "No category is found"))
    ensures r.Ok? <==> IntMin <= id <= IntMax && id in s.rows
    ensures r.Ok? ==> r.value == ToResponse(s.rows[id])
  {
    var key :- ToIntExact(id);
    if key in s.rows then Ok(ToResponse(s.rows[key]))
    else Err(AppException(Runtime, "No category is found"))
  }

  /** getAllCategories: one response per stored category, `ids` giving the
      row behind each entry (the order of findAll is the database's and is
      left open). Every row is listed, each exactly once. */
  method GetAllCategories(s: CategoryStore) returns (rs: seq<CategoryResponse>, ids: seq<int>)
    ensures |rs| == |ids| == |s.rows|
    ensures forall i :: 0 <= i < |ids| ==> ids[i] in s.rows && rs[i] == ToResponse(s.rows[ids[i]])
    ensures forall i, j :: 0 <= i < j < |ids| ==> ids[i] != ids[j]
    ensures forall k :: k in s.rows ==> k in ids && ToResponse(s.rows[k]) in rs
    ensures Valid(s) ==> forall i :: 0 <= i < |rs| ==> rs[i].id == ids[i]
  {
    rs, ids := Tables.ListAll(s.rows, ToResponse);
    forall k | k in s.rows
      ensures ToResponse(s.rows[k]) in rs
    {
      var i :| 0 <= i < |ids| && ids[i] == k;
      assert rs[i] == ToResponse(s.rows[k]);
    }
  }

  /** Reading back a created category: its id answers exactly the response
      the create returned, provided the id fits an `int`. */
  lemma GetAfterCreate(s: CategoryStore, req: CategoryRequest)
    ensures var r := CreateCategory(s, req);
            r.Ok? && IntMin <= r.value.1.id <= IntMax ==>
              GetCategoryById(r.value.0, r.value.1.id) == Ok(r.value.1)
  {
  }

  /** Reading back a deleted category fails, with "No category is found"
      for an id in `int` range, and every other id reads as before. */
  lemma GetAfterDelete(s: CategoryStore, id: int)
    ensures GetCategoryById(DeleteCategory(s, id), id).Err?
    ensures IntMin <= id <= IntMax ==>
              GetCategoryById(DeleteCategory(s, id), id) == Err(AppException(Runtime, "No category is found"))
    ensures forall k :: k != id ==> GetCategoryById(DeleteCategory(s, id), k) == GetCategoryById(s, k)
  {
  }

}

=== FILE: errors.dfy ===
/** Exceptions raised by the services and the records written back to the
    client when one of them, or an authorization denial, ends a request.
    The record is ExceptionResponseDTO {path, status, message, timestamp};
    the timestamp comes from the clock and is not modelled. */
module Errors {

  import opened Wrappers

  const OK: int := 200
  const CREATED: int := 201
  const UNAUTHORIZED: int := 401
  const FORBIDDEN: int := 403
  const NOT_FOUND: int := 404
  const CONFLICT: int := 409

  /** The Java exception classes that the modelled code throws or lets escape. */
  datatype ExceptionKind =
    | CategoryAlreadyExists   // CategoryAlreadyExistsException
    | CategoryNotFound        // CategoryNotFoundException
    | UserNotFound            // UserNotFoundException
    | UsernameNotFound        // Spring's UsernameNotFoundException
    | BadCredentials          // Spring's BadCredentialsException
    | Runtime                 // plain RuntimeException
    | Arithmetic              // ArithmeticException from Math.toIntExact
    | NullPointer             // NullPointerException
    | DataIntegrityViolation  // unique-constraint violation on save

  datatype AppException = AppException(kind: ExceptionKind, message: string)

  datatype ExceptionResponse = ExceptionResponse(path: string, status: int, message: string)

  /** An HTTP status together with the JSON body written under it. */
  datatype ErrorReply = ErrorReply(status: int, body: ExceptionResponse)

  /** The body repeats the status line's code. */
  predicate Consistent(r: ErrorReply) {
    r.body.status == r.status
  }

  /** JwtAccessDeniedHandler.handle: every authorization denial, whatever its
      cause, becomes the same 403 record naming the request URI. */
  function AccessDenied(requestUri: string): (r: ErrorReply)
    ensures r.status == FORBIDDEN && Consistent(r)
    ensures r.body.path == requestUri
    ensures r.body.message == "Access Denied"
  {
    ErrorReply(FORBIDDEN, ExceptionResponse(requestUri, FORBIDDEN, "Access Denied"))
  }

  /** The status GlobalExceptionHandler assigns to an exception kind, if it
      has a handler for that kind. */
  function HandledStatus(kind: ExceptionKind): Option<int> {
    match kind
    case CategoryAlreadyExists => Some(CONFLICT)
    case CategoryNotFound => Some(NOT_FOUND)
    case UserNotFound => Some(NOT_FOUND)
    case _ => None
  }

  /** GlobalExceptionHandler: the three handled exception kinds become a
      record carrying the request URI and the exception's own message; every
      other exception is left to the framework (None). */
  function HandleException(ex: AppException, requestUri: string): (r: Option<ErrorReply>)
    ensures r.Some? <==> ex.kind in {CategoryAlreadyExists, CategoryNotFound, UserNotFound}
    ensures ex.kind == CategoryAlreadyExists ==> r.Some? && r.value.status == CONFLICT
    ensures ex.kind in {CategoryNotFound, UserNotFound} ==> r.Some? && r.value.status == NOT_FOUND
    ensures r.Some? ==> Consistent(r.value)
    ensures r.Some? ==> r.value.body.path == requestUri && r.value.body.message == ex.message
    ensures r.Some? ==> r.value.status != AccessDenied(requestUri).status
  {
    match HandledStatus(ex.kind)
    case None => None
    case Some(status) => Some(ErrorReply(status, ExceptionResponse(requestUri, status, ex.message)))
  }
}

=== FILE: jwt.dfy ===
/** JwtUtil: issuing and checking HS256 bearer tokens (RFC 7519 JSON Web
    Tokens signed as RFC 7515 JWS). The compact encoding and the MAC belong
    to the JJWT library and are abstracted: a well-formed token records the
    key that signed it, and verifying under a key succeeds exactly when it is
    that key. The claims and the checks made on them are modelled in full.

    Times are milliseconds since the epoch, passed in wherever the source
    reads the clock. A JWT date claim is a NumericDate (section 2 of RFC
    7519), which JJWT stores in whole seconds, truncating the milliseconds. */
module Jwt {

  import opened Wrappers
  import Text

  const MillisPerSecond: nat := 1000

  /** Token lifetime fixed in generateToken: 1000 * 60 * 2 ms, two minutes. */
  const ExpirationMillis: nat := 1000 * 60 * 2

  /** The process-wide HS256 secret, generated once at start-up. */
  datatype Key = Key(material: nat)

  /** The claims this application writes: `sub`, `roles`, `iat`, `exp`;
      the two dates are NumericDates, in seconds. `sub` may be absent:
      getSubject() then answers null. */
  datatype Claims = Claims(subject: Option<string>, roles: seq<string>, issuedAt: nat, expiration: nat)

  /** A compact token string: either a signed JWS over some claims, or text
      that does not parse as one. */
  datatype Token = Jws(claims: Claims, signedWith: Key) | Garbled(text: string)

  /** Why a token was refused: the exception JJWT's parser throws, or
      NullSubject, the NullPointerException validateToken throws when it
      calls equals on the null subject of a token without `sub`. */
  datatype JwtError = Malformed | SignatureInvalid | Expired(claims: Claims) | NullSubject

  /** java.util.Date (milliseconds) to NumericDate (seconds). */
  function NumericDate(millis: nat): nat {
    millis / MillisPerSecond
  }

  /** NumericDate (seconds) back to a java.util.Date (milliseconds). */
  function DateOf(seconds: nat): nat {
    seconds * MillisPerSecond
  }

  /** The expiry instant of a token, as the Date that getExpiration returns. */
  function ExpiryMillis(c: Claims): nat {
    DateOf(c.expiration)
  }

  /** A Date survives the trip through a NumericDate up to the truncated
      milliseconds: it comes back at most 999 ms earlier. */
  lemma NumericDateRoundTrip(millis: nat)
    ensures DateOf(NumericDate(millis)) <= millis < DateOf(NumericDate(millis)) + MillisPerSecond
  {
  }

  /** The `sub` that the builder's setSubject, called first on a fresh
      builder, stores: the name when it has a non-whitespace character;
      otherwise nothing, since no claims exist yet to clear it from. */
  function SubjectClaim(username: string): (sub: Option<string>)
    ensures sub.Some? <==> Text.HasText(username)
    ensures sub.Some? ==> sub.value == username
  {
    if Text.HasText(username) then Some(username) else None
  }

  /** generateToken(username, roles). The source reads the clock twice:
      `issueClock` for iat and `expiryClock` for exp. */
  function GenerateToken(key: Key, username: string, roles: seq<string>,
                         issueClock: nat, expiryClock: nat): (t: Token)
    ensures t.Jws? && t.signedWith == key
    ensures t.claims.subject.Some? <==> Text.HasText(username)
    ensures t.claims.subject.Some? ==> t.claims.subject.value == username
    ensures t.claims.roles == roles
    ensures DateOf(t.claims.issuedAt) <= issueClock < DateOf(t.claims.issuedAt) + MillisPerSecond
    ensures ExpiryMillis(t.claims) <= expiryClock + ExpirationMillis < ExpiryMillis(t.claims) + MillisPerSecond
  {
    NumericDateRoundTrip(issueClock);
    NumericDateRoundTrip(expiryClock + ExpirationMillis);
    Jws(Claims(SubjectClaim(username), roles, NumericDate(issueClock), NumericDate(expiryClock + ExpirationMillis)), key)
  }

  /** parserBuilder().setSigningKey(key).build().parseClaimsJws(token).getBody():
      the structure must parse, the signature must verify under `key`, and,
      as JJWT always checks with zero clock skew, `now` must not be after exp. */
  function ParseClaimsJws(key: Key, token: Token, now: nat): (r: Result<Claims, JwtError>)
    ensures r.Ok? <==> token.Jws? && token.signedWith == key && now <= ExpiryMillis(token.claims)
    ensures r.Ok? ==> r.value == token.claims
    ensures token.Garbled? ==> r == Err(Malformed)
    ensures token.Jws? && token.signedWith != key ==> r == Err(SignatureInvalid)
    ensures token.Jws? && token.signedWith == key && ExpiryMillis(token.claims) < now ==>
              r == Err(Expired(token.claims))
  {
    match token
    case Garbled(_) => Err(Malformed)
    case Jws(claims, signer) =>
      if signer != key then Err(SignatureInvalid)
      else if ExpiryMillis(claims) < now then Err(Expired(claims))
      else Ok(claims)
  }

  /** extractClaim(token, resolver): parse, then apply the resolver. */
  function ExtractClaim<T>(key: Key, token: Token, now: nat, resolver: Claims -> T): (r: Result<T, JwtError>)
    ensures r.Ok? <==> ParseClaimsJws(key, token, now).Ok?
    ensures r.Ok? ==> r.value == resolver(token.claims)
  {
    var claims :- ParseClaimsJws(key, token, now);
    Ok(resolver(claims))
  }

  /** extractUsername: the subject claim of a token that parses (None for
      the null of a token without one); the parser's refusal otherwise. */
  function ExtractUsername(key: Key, token: Token, now: nat): (r: Result<Option<string>, JwtError>)
    ensures ParseClaimsJws(key, token, now).Err? ==> r == Err(ParseClaimsJws(key, token, now).error)
    ensures ParseClaimsJws(key, token, now).Ok? ==> r == Ok(token.claims.subject)
  {
    ExtractClaim(key, token, now, (c: Claims) => c.subject)
  }

  /** extractExpiration: the exp claim as a Date, in milliseconds, which is
      the whole second the token stores; the parser's refusal otherwise. */
  function ExtractExpiration(key: Key, token: Token, now: nat): (r: Result<nat, JwtError>)
    ensures ParseClaimsJws(key, token, now).Err? ==> r == Err(ParseClaimsJws(key, token, now).error)
    ensures ParseClaimsJws(key, token, now).Ok? ==>
              r.Ok? && r.value % MillisPerSecond == 0 && r.value / MillisPerSecond == token.claims.expiration
  {
    ExtractClaim(key, token, now, (c: Claims) => ExpiryMillis(c))
  }

  /** extractRoles: the "roles" claim, unchanged; the parser's refusal otherwise. */
  function ExtractRoles(key: Key, token: Token, now: nat): (r: Result<seq<string>, JwtError>)
    ensures ParseClaimsJws(key, token, now).Err? ==> r == Err(ParseClaimsJws(key, token, now).error)
    ensures ParseClaimsJws(key, token, now).Ok? ==> r == Ok(token.claims.roles)
  {
    ExtractClaim(key, token, now, (c: Claims) => c.roles)
  }

  /** isTokenExpired: the expiry (parsed at `parseClock`) is strictly before
      `now`, the later `new Date()` reading. */
  function IsTokenExpired(key: Key, token: Token, parseClock: nat, now: nat): (r: Result<bool, JwtError>)
    ensures r.Ok? <==> ParseClaimsJws(key, token, parseClock).Ok?
    ensures r.Ok? ==> (r.value <==> ExpiryMillis(token.claims) < now)
    ensures ParseClaimsJws(key, token, parseClock).Err? ==> r == Err(ParseClaimsJws(key, token, parseClock).error)
  {
    var exp :- ExtractExpiration(key, token, parseClock);
    Ok(exp < now)
  }

  /** validateToken(token, userDetails). The subject is parsed at
      `subjectClock`; a missing subject makes `username.equals` throw; only
      a subject equal to the user's name leads to the expiry being parsed
      at `expiryClock` and compared with `now`. A parse failure escapes as
      the library's exception (Err). */
  function ValidateToken(key: Key, token: Token, username: string,
                         subjectClock: nat, expiryClock: nat, now: nat): (r: Result<bool, JwtError>)
    ensures r == Ok(true) ==>
              && token.Jws? && token.signedWith == key
              && token.claims.subject == Some(username)
              && now <= ExpiryMillis(token.claims)
    ensures ParseClaimsJws(key, token, subjectClock).Err? ==>
              r == Err(ParseClaimsJws(key, token, subjectClock).error)
    ensures ParseClaimsJws(key, token, subjectClock).Ok? && token.claims.subject.None? ==>
              r == Err(NullSubject)
    ensures ParseClaimsJws(key, token, subjectClock).Ok? && token.claims.subject.Some? &&
            token.claims.subject.value != username ==>
              r == Ok(false)
    ensures ParseClaimsJws(key, token, subjectClock).Ok? && token.claims.subject == Some(username) ==>
              && (ParseClaimsJws(key, token, expiryClock).Err? ==>
                    r == Err(ParseClaimsJws(key, token, expiryClock).error))
              && (ParseClaimsJws(key, token, expiryClock).Ok? ==> r == Ok(now <= ExpiryMillis(token.claims)))
  {
    var subject :- ExtractUsername(key, token, subjectClock);
    match subject
    case None => Err(NullSubject)
    case Some(name) =>
      if name != username then Ok(false)
      else
        var expired :- IsTokenExpired(key, token, expiryClock, now);
        Ok(!expired)
  }

  /** Converse of ValidateToken's guarantee: a token signed with the process
      key, naming the user and not yet expired, is accepted whenever the
      three clock readings are taken in order. */
  lemma ValidateAcceptsLiveToken(key: Key, token: Token, username: string,
                                 subjectClock: nat, expiryClock: nat, now: nat)
    requires token.Jws? && token.signedWith == key && token.claims.subject == Some(username)
    requires subjectClock <= expiryClock <= now <= ExpiryMillis(token.claims)
    ensures ValidateToken(key, token, username, subjectClock, expiryClock, now) == Ok(true)
  {
    assert ExtractUsername(key, token, subjectClock) == Ok(Some(username));
    assert IsTokenExpired(key, token, expiryClock, now) == Ok(false);
  }

  /** "before" is strict: at exactly its expiry instant a token is not
      counted as expired, one millisecond later it is. */
  lemma ExpiryInstantIsNotExpired(key: Key, token: Token, parseClock: nat)
    requires token.Jws? && token.signedWith == key && parseClock <= ExpiryMillis(token.claims)
    ensures IsTokenExpired(key, token, parseClock, ExpiryMillis(token.claims)) == Ok(false)
    ensures IsTokenExpired(key, token, parseClock, ExpiryMillis(token.claims) + 1) == Ok(true)
  {
    assert ExtractExpiration(key, token, parseClock) == Ok(ExpiryMillis(token.claims));
  }

  /** Round trip: within its lifetime a freshly issued token yields back,
      under the issuing key, the role list it was issued for, and the
      username when it has text; a blank username comes back as null. */
  lemma IssuedClaimsRoundTrip(key: Key, username: string, roles: seq<string>,
                              issueClock: nat, expiryClock: nat, now: nat)
    requires now <= expiryClock + ExpirationMillis - MillisPerSecond + 1
    ensures Text.HasText(username) ==>
              ExtractUsername(key, GenerateToken(key, username, roles, issueClock, expiryClock), now) == Ok(Some(username))
    ensures !Text.HasText(username) ==>
              ExtractUsername(key, GenerateToken(key, username, roles, issueClock, expiryClock), now) == Ok(None)
    ensures ExtractRoles(key, GenerateToken(key, username, roles, issueClock, expiryClock), now) == Ok(roles)
  {
    var t := GenerateToken(key, username, roles, issueClock, expiryClock);
    assert ParseClaimsJws(key, t, now) == Ok(t.claims);
  }

  /** A token issued under one key fails to parse under any other. */
  lemma ForeignKeyRejected(key: Key, other: Key, username: string, roles: seq<string>,
                           issueClock: nat, expiryClock: nat, now: nat)
    requires other != key
    ensures ExtractClaim(other, GenerateToken(key, username, roles, issueClock, expiryClock), now,
                         (c: Claims) => c) == Err(SignatureInvalid)
  {
    var t := GenerateToken(key, username, roles, issueClock, expiryClock);
    assert ParseClaimsJws(other, t, now) == Err(SignatureInvalid);
  }

  /** The two-minute lifetime: the expiry read back lies within the last
      second before issuance + 120 000 ms (exactly there when the clock
      reading is a whole second); a parse after that instant throws Expired. */
  lemma IssuedLifetime(key: Key, username: string, roles: seq<string>,
                       issueClock: nat, expiryClock: nat, now: nat)
    ensures var t := GenerateToken(key, username, roles, issueClock, expiryClock);
            && expiryClock + ExpirationMillis - MillisPerSecond < ExpiryMillis(t.claims) <= expiryClock + ExpirationMillis
            && (expiryClock % MillisPerSecond == 0 ==> ExpiryMillis(t.claims) == expiryClock + ExpirationMillis)
            && (now > expiryClock + ExpirationMillis ==> ParseClaimsJws(key, t, now) == Err(Expired(t.claims)))
  {
    var t := GenerateToken(key, username, roles, issueClock, expiryClock);
    if expiryClock % MillisPerSecond == 0 {
      var q := expiryClock / MillisPerSecond;
      assert expiryClock + ExpirationMillis == (q + 120) * MillisPerSecond;
      assert NumericDate(expiryClock + ExpirationMillis) == q + 120;
    }
  }

  /** End to end: a token issued for a user with a non-blank name
      validates for that user at any time up to 119 000 ms after the expiry
      clock reading, and never after issuance + 120 000 ms; a token issued
      for a blank name never validates, and within its lifetime validation
      throws on the missing subject. */
  lemma IssuedTokenValidity(key: Key, username: string, roles: seq<string>,
                            issueClock: nat, expiryClock: nat,
                            subjectClock: nat, parseClock: nat, now: nat)
    requires subjectClock <= parseClock <= now
    ensures var t := GenerateToken(key, username, roles, issueClock, expiryClock);
            && (Text.HasText(username) && now <= expiryClock + ExpirationMillis - MillisPerSecond ==>
                  ValidateToken(key, t, username, subjectClock, parseClock, now) == Ok(true))
            && (now > expiryClock + ExpirationMillis ==>
                  ValidateToken(key, t, username, subjectClock, parseClock, now) != Ok(true))
            && (!Text.HasText(username) ==>
                  ValidateToken(key, t, username, subjectClock, parseClock, now) != Ok(true))
            && (!Text.HasText(username) && now <= expiryClock + ExpirationMillis - MillisPerSecond ==>
                  ValidateToken(key, t, username, subjectClock, parseClock, now) == Err(NullSubject))
  {
    var t := GenerateToken(key, username, roles, issueClock, expiryClock);
    if Text.HasText(username) && now <= expiryClock + ExpirationMillis - MillisPerSecond {
      ValidateAcceptsLiveToken(key, t, username, subjectClock, parseClock, now);
    }
  }
}

=== FILE: products.dfy ===
/** ProductServiceImpl over the product table, which refers to the category
    table by id. ProductMapper and the category repository are not part of
    this model: a new product carries the request's fields and the id of the
    category found, and a response reports a product's five fields. */
module Products {

  import opened Wrappers
  import opened Errors
  import Text
  import Tables
  import Categories

  /** The Double price, kept as its 64-bit pattern: it is copied, never computed on. */
  datatype Price = Price(bits: bv64)

  datatype Product = Product(id: int, name: string, description: string, price: Price, categoryId: int)

  datatype ProductRequest = ProductRequest(name: string, description: string, price: Price, categoryId: int)

  datatype ProductResponse = ProductResponse(id: int, name: string, description: string, price: Price, categoryId: int)

  /** The product table and the next identity value. */
  datatype ProductStore = ProductStore(rows: map<int, Product>, nextId: int)

  ghost predicate Valid(s: ProductStore) {
    forall k :: k in s.rows ==> s.rows[k].id == k && k < s.nextId
  }

  /** Every product refers to a stored category. */
  ghost predicate Linked(s: ProductStore, categories: Categories.CategoryStore) {
    forall k :: k in s.rows ==> s.rows[k].categoryId in categories.rows
  }

  function ToResponse(p: Product): ProductResponse {
    ProductResponse(p.id, p.name, p.description, p.price, p.categoryId)
  }

  /** The message of the CategoryNotFoundException createProduct throws. */
  function CategoryIdNotFound(categoryId: int): string {
    "Category id " + ":" + Text.IntToDecimal(categoryId) + " " + " not found"
  }

  /** createProduct: the request's category must exist; then one product is
      saved, linked to it, carrying the request's fields. */
  function CreateProduct(s: ProductStore, categories: Categories.CategoryStore, req: ProductRequest)
    : (r: Result<(ProductStore, ProductResponse), AppException>)
    ensures r.Err? <==> req.categoryId !in categories.rows
    ensures r.Err? ==> r.error == AppException(CategoryNotFound, CategoryIdNotFound(req.categoryId))
    ensures r.Ok? ==>
              var (s', resp) := r.value;
              && resp.id in s'.rows
              && s'.rows[resp.id] == Product(resp.id, req.name, req.description, req.price, req.categoryId)
              && resp == ToResponse(s'.rows[resp.id])
              && (forall k :: k in s'.rows ==> k in s.rows || k == resp.id)
              && (forall k :: k in s.rows && k != resp.id ==> k in s'.rows && s'.rows[k] == s.rows[k])
    ensures r.Ok? && Valid(s) ==>
              r.value.1.id !in s.rows && |r.value.0.rows| == |s.rows| + 1
  {
    if req.categoryId !in categories.rows then
      Err(AppException(CategoryNotFound, CategoryIdNotFound(req.categoryId)))
    else
      var saved := Product(s.nextId, req.name, req.description, req.price, req.categoryId);
      Ok((ProductStore(s.rows[saved.id := saved], s.nextId + 1), ToResponse(saved)))
  }

  /** updateProduct: the product must exist ("Product not found"), then the
      new category must exist ("Category not found"); on success the stored
      product takes the request's four fields and keeps its id. Either
      failure leaves the table as it was: the save made before the category
      lookup writes the product back unchanged. The response is not
      modelled (see the README). */
  function UpdateProduct(s: ProductStore, categories: Categories.CategoryStore, id: int, req: ProductRequest)
    : (r: Result<ProductStore, AppException>)
    ensures id !in s.rows ==> r == Err(AppException(Runtime, "Product not found"))
    ensures id in s.rows && req.categoryId !in categories.rows ==>
              r == Err(AppException(Runtime, "Category not found"))
    ensures r.Ok? <==> id in s.rows && req.categoryId in categories.rows
    ensures r.Ok? ==>
              && id in r.value.rows
              && r.value.rows[id] == Product(s.rows[id].id, req.name, req.description, req.price, req.categoryId)
              && r.value.rows.Keys == s.rows.Keys
              && (forall k :: k in s.rows && k != id ==> r.value.rows[k] == s.rows[k])
              && r.value.nextId == s.nextId
  {
    if id !in s.rows then Err(AppException(Runtime, "Product not found"))
    else
      var product := s.rows[id];
      var afterFirstSave := ProductStore(s.rows[id := product], s.nextId);
      if req.categoryId !in categories.rows then Err(AppException(Runtime, "Category not found"))
      else
        var updated := product.(name := req.name, description := req.description,
                                price := req.price, categoryId := req.categoryId);
        Ok(ProductStore(afterFirstSave.rows[id := updated], afterFirstSave.nextId))
  }

  /** deleteProduct: deleteById, a no-op for an absent id. */
  function DeleteProduct(s: ProductStore, id: int): (s': ProductStore)
    ensures id !in s'.rows && s'.nextId == s.nextId
    ensures forall k :: k != id ==> (k in s'.rows <==> k in s.rows)
    ensures forall k :: k in s'.rows ==> s'.rows[k] == s.rows[k]
    ensures id !in s.rows ==> s' == s
  {
    ProductStore(s.rows - {id}, s.nextId)
  }

  /** getProductById. */
  function GetProductById(s: ProductStore, id: int): (r: Result<ProductResponse, AppException>)
    ensures r.Err? <==> id !in s.rows
    ensures r.Err? ==> r.error == AppException(Runtime, "Product not found")
    ensures r.Ok? ==> r.value == ToResponse(s.rows[id])
  {
    if id in s.rows then Ok(ToResponse(s.rows[id])) else Err(AppException(Runtime, "Product not found"))
  }

  /** getProductsByCategory is a stub: whatever the category, no products. */
  function GetProductsByCategory(s: ProductStore, categoryId: int): (rs: seq<ProductResponse>)
    ensures rs == []
  {
    []
  }

  /** getAllProducts: one response per stored product, in the database's
      order, with `ids` naming the row behind each entry: every product is
      listed exactly once, and on a well-formed table a response reports
      the id it was listed under. */
  method GetAllProducts(s: ProductStore) returns (rs: seq<ProductResponse>, ids: seq<int>)
    ensures |rs| == |ids| == |s.rows|
    ensures forall i :: 0 <= i < |ids| ==> ids[i] in s.rows && rs[i] == ToResponse(s.rows[ids[i]])
    ensures forall i, j :: 0 <= i < j < |ids| ==> ids[i] != ids[j]
    ensures forall k :: k in s.rows ==> k in ids
    ensures Valid(s) ==> forall i :: 0 <= i < |rs| ==> rs[i].id == ids[i]
  {
    rs, ids := Tables.ListAll(s.rows, ToResponse);
  }

  /** Reading back a created product answers exactly the create's response. */
  lemma GetAfterCreate(s: ProductStore, categories: Categories.CategoryStore, req: ProductRequest)
    ensures var r := CreateProduct(s, categories, req);
            r.Ok? ==> GetProductById(r.value.0, r.value.1.id) == Ok(r.value.1)
  {
  }

  /** Reading back an updated product reports the request's fields under
      the same id; every other product reads as before. */
  lemma GetAfterUpdate(s: ProductStore, categories: Categories.CategoryStore, id: int, req: ProductRequest)
    requires Valid(s)
    ensures var r := UpdateProduct(s, categories, id, req);
            r.Ok? ==>
              && GetProductById(r.value, id) ==
                 Ok(ProductResponse(id, req.name, req.description, req.price, req.categoryId))
              && forall k :: k != id ==> GetProductById(r.value, k) == GetProductById(s, k)
  {
  }

  /** Reading back a deleted product fails with "Product not found"; every
      other product reads as before. */
  lemma GetAfterDelete(s: ProductStore, id: int)
    ensures GetProductById(DeleteProduct(s, id), id) == Err(AppException(Runtime, "Product not found"))
    ensures forall k :: k != id ==> GetProductById(DeleteProduct(s, id), k) == GetProductById(s, k)
  {
  }


  /** Creating, updating and deleting products keep every product linked to
      a stored category and the table well-formed. */
  lemma ProductWritesPreserveInvariants(s: ProductStore, categories: Categories.CategoryStore,
                                        req: ProductRequest, id: int)
    requires Valid(s) && Linked(s, categories)
    ensures CreateProduct(s, categories, req).Ok? ==>
              Valid(CreateProduct(s, categories, req).value.0) &&
              Linked(CreateProduct(s, categories, req).value.0, categories)
    ensures UpdateProduct(s, categories, id, req).Ok? ==>
              Valid(UpdateProduct(s, categories, id, req).value) &&
              Linked(UpdateProduct(s, categories, id, req).value, categories)
    ensures Valid(DeleteProduct(s, id)) && Linked(DeleteProduct(s, id), categories)
  {
  }
}

=== FILE: routes.dfy ===
/** The request mappings of CategoryController (/api/categories),
    ProductController (/api/products) and UserController (/user), with the
    authority each handler's @PreAuthorize demands and the status a
    successful call answers with. A path is the request URI split at '/',
    so "/api/products/7" is ["api", "products", "7"]. */
module Routes {

  import opened Wrappers
  import Errors
  import Text

  datatype Method = GET | HEAD | POST | PUT | PATCH | DELETE | OPTIONS | TRACE

  type Path = seq<string>

  /** The request URI a path was split from; the empty path is "/". */
  function UriOf(path: Path): string {
    if path == [] then "/" else Slashed(path)
  }

  function Slashed(path: Path): string {
    if path == [] then "" else "/" + path[0] + Slashed(path[1..])
  }

  /** The URI of a three-segment path: a proof helper that unfolds
      `Slashed` for the route lemmas, not a property of the program. */
  lemma UriOfThree(a: string, b: string, c: string)
    ensures UriOf([a, b, c]) == "/" + a + "/" + b + "/" + c
  {
    assert [a, b, c][1..] == [b, c];
    assert [b, c][1..] == [c];
    assert [c][1..] == [];
    assert Slashed([c]) == "/" + c;
    assert Slashed([b, c]) == "/" + b + "/" + c;
  }

  datatype Endpoint =
    | CreateCategory | DeleteCategory | GetCategoryById | GetAllCategories
    | CreateProduct | UpdateProduct | DeleteProduct | GetProductById | GetAllProducts | GetProductsByCategory
    | RegisterUser | LoginUser

  /** @GetMapping handlers also answer HEAD. */
  predicate Reads(m: Method) {
    m == GET || m == HEAD
  }

  /** One segment of a mapping's path pattern: literal text, or a `{var}`
      that captures a whole non-empty segment. */
  datatype Segment = Lit(text: string) | Var

  /** The path pattern of each handler: the controller's @RequestMapping
      prefix followed by the method mapping's own path. */
  function Template(e: Endpoint): seq<Segment> {
    match e
    case CreateCategory => [Lit("api"), Lit("categories")]
    case GetAllCategories => [Lit("api"), Lit("categories")]
    case DeleteCategory => [Lit("api"), Lit("categories"), Var]
    case GetCategoryById => [Lit("api"), Lit("categories"), Var]
    case CreateProduct => [Lit("api"), Lit("products")]
    case GetAllProducts => [Lit("api"), Lit("products")]
    case UpdateProduct => [Lit("api"), Lit("products"), Var]
    case DeleteProduct => [Lit("api"), Lit("products"), Var]
    case GetProductById => [Lit("api"), Lit("products"), Var]
    case GetProductsByCategory => [Lit("api"), Lit("products"), Lit("category"), Var]
    case RegisterUser => [Lit("user"), Lit("register")]
    case LoginUser => [Lit("user"), Lit("login")]
  }

  /** The HTTP methods each handler's mapping annotation accepts. */
  function Verbs(e: Endpoint): set<Method> {
    match e
    case CreateCategory => {POST}
    case DeleteCategory => {DELETE}
    case CreateProduct => {POST}
    case UpdateProduct => {PUT}
    case DeleteProduct => {DELETE}
    case RegisterUser => {POST}
    case LoginUser => {POST}
    case _ => {GET, HEAD}
  }

  /** A path fits a pattern segment by segment; a variable never matches an
      empty segment, so "/api/products/" is no product id. */
  predicate Fits(path: Path, t: seq<Segment>) {
    |path| == |t| && forall i :: 0 <= i < |t| ==> if t[i].Var? then path[i] != "" else path[i] == t[i].text
  }

  /** The handler a request is dispatched to; None when no mapping matches
      (the framework then answers 404 or 405). The mapping table above is
      the reference: the chosen handler's mapping accepts the method and
      path, and when none is chosen no mapping does. With
      MappingsDisjoint, the chosen handler is the only one. */
  function Route(m: Method, path: Path): (r: Option<Endpoint>)
    ensures r.Some? ==> m in Verbs(r.value) && Fits(path, Template(r.value))
    ensures r.None? ==> forall e :: !(m in Verbs(e) && Fits(path, Template(e)))
  {
    if path == ["api", "categories"] then
      if m == POST then Some(CreateCategory)
      else if Reads(m) then Some(GetAllCategories)
      else None
    else if |path| == 3 && path[0] == "api" && path[1] == "categories" && path[2] != "" then
      if m == DELETE then Some(DeleteCategory)
      else if Reads(m) then Some(GetCategoryById)
      else None
    else if path == ["api", "products"] then
      if m == POST then Some(CreateProduct)
      else if Reads(m) then Some(GetAllProducts)
      else None
    else if |path| == 4 && path[0] == "api" && path[1] == "products" && path[2] == "category" && path[3] != "" then
      if Reads(m) then Some(GetProductsByCategory) else None
    else if |path| == 3 && path[0] == "api" && path[1] == "products" && path[2] != "" then
      if m == PUT then Some(UpdateProduct)
      else if m == DELETE then Some(DeleteProduct)
      else if Reads(m) then Some(GetProductById)
      else None
    else if path == ["user", "register"] && m == POST then Some(RegisterUser)
    else if path == ["user", "login"] && m == POST then Some(LoginUser)
    else None
  }

  /** Converse of Route's contract: a mapping that accepts the method and
      path is the one Route chooses. */
  lemma RouteFindsMapping(m: Method, path: Path, e: Endpoint)
    requires m in Verbs(e) && Fits(path, Template(e))
    ensures Route(m, path) == Some(e)
  {
    var t := Template(e);
    assert forall i :: 0 <= i < |t| && t[i].Lit? ==> path[i] == t[i].text;
    if |t| == 2 {
      assert path == [t[0].text, t[1].text];
    }
  }

  /** No request fits two mappings, so dispatch is never ambiguous. */
  lemma MappingsDisjoint(m: Method, path: Path, e1: Endpoint, e2: Endpoint)
    requires m in Verbs(e1) && Fits(path, Template(e1))
    requires m in Verbs(e2) && Fits(path, Template(e2))
    ensures e1 == e2
  {
    RouteFindsMapping(m, path, e1);
    RouteFindsMapping(m, path, e2);
  }

  /** The Java type a handler declares for its @PathVariable. */
  datatype IdType = JavaInteger | JavaLong

  function PathVariable(e: Endpoint): Option<IdType> {
    match e
    case DeleteCategory => Some(JavaInteger)
    case GetCategoryById => Some(JavaLong)
    case UpdateProduct => Some(JavaInteger)
    case DeleteProduct => Some(JavaInteger)
    case GetProductById => Some(JavaInteger)
    case GetProductsByCategory => Some(JavaLong)
    case _ => None
  }

  predicate ConvertsTo(text: string, t: IdType) {
    match t
    case JavaInteger => Text.ConvertsWithin(text, Text.IntMin, Text.IntMax)
    case JavaLong => Text.ConvertsWithin(text, Text.LongMin, Text.LongMax)
  }

  /** Argument resolution, which runs before the handler (and so before its
      @PreAuthorize) is invoked: the path variable, always the last segment,
      must convert to the declared type, or the request is answered 400. */
  predicate ArgumentsResolve(e: Endpoint, path: Path) {
    PathVariable(e).None? || (|path| > 0 && ConvertsTo(path[|path| - 1], PathVariable(e).value))
  }

  /** The authority named in the handler's @PreAuthorize("hasAuthority(..)"):
      ROLE_ADMIN on category mutation, ROLE_SELLER on product mutation,
      nothing on reads, registration and login. */
  function RequiredAuthority(e: Endpoint): (a: Option<string>)
    ensures a == Some("ROLE_ADMIN") <==> e in {CreateCategory, DeleteCategory}
    ensures a == Some("ROLE_SELLER") <==> e in {CreateProduct, UpdateProduct, DeleteProduct}
    ensures a.None? <==> e in {GetCategoryById, GetAllCategories, GetProductById, GetAllProducts,
                               GetProductsByCategory, RegisterUser, LoginUser}
  {
    match e
    case CreateCategory => Some("ROLE_ADMIN")
    case DeleteCategory => Some("ROLE_ADMIN")
    case CreateProduct => Some("ROLE_SELLER")
    case UpdateProduct => Some("ROLE_SELLER")
    case DeleteProduct => Some("ROLE_SELLER")
    case _ => None
  }

  /** The status of a call that completes: 201 for the three creations
      (category, product, user), 200 for everything else. */
  function SuccessStatus(e: Endpoint): (status: int)
    ensures status == Errors.CREATED <==> e in {CreateCategory, CreateProduct, RegisterUser}
    ensures status != Errors.CREATED ==> status == Errors.OK
  {
    match e
    case CreateCategory => Errors.CREATED
    case CreateProduct => Errors.CREATED
    case RegisterUser => Errors.CREATED
    case _ => Errors.OK
  }

  /** Every handler reached by a GET is unrestricted. */
  lemma ReadsAreUnrestricted(m: Method, path: Path)
    requires Reads(m) && Route(m, path).Some?
    ensures RequiredAuthority(Route(m, path).value).None?
  {
  }

  /** Every restricted handler lives under /api and is reached by a method
      other than GET or HEAD. */
  lemma RestrictedHandlersAreApiWrites(m: Method, path: Path)
    requires Route(m, path).Some? && RequiredAuthority(Route(m, path).value).Some?
    ensures |path| >= 1 && path[0] == "api" && !Reads(m)
  {
  }

  /** ProductController: create, update and delete need ROLE_SELLER; the
      three reads need nothing; create answers 201, the others 200. The
      product id is an Integer, the category id of the listing a Long. */
  lemma ProductControllerGates(id: string, categoryId: string)
    requires id != "" && categoryId != ""
    ensures Route(POST, ["api", "products"]) == Some(CreateProduct)
    ensures Route(PUT, ["api", "products", id]) == Some(UpdateProduct)
    ensures Route(DELETE, ["api", "products", id]) == Some(DeleteProduct)
    ensures Route(GET, ["api", "products", id]) == Some(GetProductById)
    ensures Route(GET, ["api", "products"]) == Some(GetAllProducts)
    ensures Route(GET, ["api", "products", "category", categoryId]) == Some(GetProductsByCategory)
    ensures forall e :: e in {CreateProduct, UpdateProduct, DeleteProduct} ==>
              RequiredAuthority(e) == Some("ROLE_SELLER")
    ensures forall e :: e in {GetProductById, GetAllProducts, GetProductsByCategory} ==>
              RequiredAuthority(e).None? && SuccessStatus(e) == Errors.OK
    ensures SuccessStatus(CreateProduct) == Errors.CREATED
    ensures SuccessStatus(UpdateProduct) == Errors.OK && SuccessStatus(DeleteProduct) == Errors.OK
    ensures forall e :: e in {UpdateProduct, DeleteProduct, GetProductById} ==> PathVariable(e) == Some(JavaInteger)
    ensures PathVariable(GetProductsByCategory) == Some(JavaLong)
  {
    RouteFindsMapping(PUT, ["api", "products", id], UpdateProduct);
    RouteFindsMapping(DELETE, ["api", "products", id], DeleteProduct);
    RouteFindsMapping(GET, ["api", "products", id], GetProductById);
    RouteFindsMapping(GET, ["api", "products", "category", categoryId], GetProductsByCategory);
  }

  /** CategoryController: create and delete need ROLE_ADMIN; the two reads
      need nothing; create answers 201, delete 200. There is no update
      mapping, so PUT on a category reaches no handler. Delete takes an
      Integer id, the lookup a Long. */
  lemma CategoryControllerGates(id: string)
    requires id != ""
    ensures Route(POST, ["api", "categories"]) == Some(CreateCategory)
    ensures Route(DELETE, ["api", "categories", id]) == Some(DeleteCategory)
    ensures Route(GET, ["api", "categories", id]) == Some(GetCategoryById)
    ensures Route(GET, ["api", "categories"]) == Some(GetAllCategories)
    ensures Route(PUT, ["api", "categories", id]).None?
    ensures RequiredAuthority(CreateCategory) == Some("ROLE_ADMIN")
    ensures RequiredAuthority(DeleteCategory) == Some("ROLE_ADMIN")
    ensures RequiredAuthority(GetCategoryById).None? && RequiredAuthority(GetAllCategories).None?
    ensures SuccessStatus(CreateCategory) == Errors.CREATED && SuccessStatus(DeleteCategory) == Errors.OK
    ensures PathVariable(DeleteCategory) == Some(JavaInteger) && PathVariable(GetCategoryById) == Some(JavaLong)
  {
  }
}

=== FILE: security.dfy ===
/** The access decision SecurityConfig sets up, combined with the
    per-handler @PreAuthorize checks: a pure function from the request and
    the identity the token filter attached (if any) to Allow, 401 or 403.

    URL rules are tried in declaration order and the first that matches
    decides. A request that passes them is dispatched to its handler; its
    path variable is converted first (400 when that fails), and only then
    is the handler's authority requirement checked. A denial for an anonymous caller
    goes to the authentication entry point (401); a denial for an
    authenticated caller goes to JwtAccessDeniedHandler (403). */
module Security {

  import opened Wrappers
  import opened Routes
  import Errors
  import Text

  /** The authenticated principal: its name and its authority strings. */
  datatype Identity = Identity(name: string, authorities: seq<string>)

  datatype Request = Request(verb: Method, path: Path)

  // requestMatchers(paths...), requestMatchers(method, "prefix/**"), anyRequest().
  datatype Matcher = AnyOfPaths(paths: seq<Path>) | MethodUnder(verb: Method, prefix: Path) | AnyRequest

  datatype Access = PermitAll | Authenticated

  datatype Rule = Rule(matcher: Matcher, access: Access)

  datatype Decision = Allow | Unauthenticated | Forbidden | BadRequest

  /** authorizeHttpRequests, in declaration order. */
  const FilterChainRules: seq<Rule> := [
    Rule(AnyOfPaths([["user", "register"], ["user", "login"], ["error"]]), PermitAll),
    Rule(MethodUnder(GET, ["api"]), PermitAll),
    Rule(AnyRequest, Authenticated)
  ]

  // The pattern "/api/**" matches "/api" itself and everything below it.
  predicate Under(path: Path, prefix: Path) {
    |prefix| <= |path| && path[..|prefix|] == prefix
  }

  predicate Matches(m: Matcher, req: Request) {
    match m
    case AnyOfPaths(paths) => req.path in paths
    case MethodUnder(verb, prefix) => req.verb == verb && Under(req.path, prefix)
    case AnyRequest => true
  }

  /** Index of the first rule at or after `from` that matches. */
  function FirstMatch(rules: seq<Rule>, req: Request, from: nat): (r: Option<nat>)
    requires from <= |rules|
    ensures r.Some? ==> from <= r.value < |rules| && Matches(rules[r.value].matcher, req)
    ensures r.Some? ==> forall j :: from <= j < r.value ==> !Matches(rules[j].matcher, req)
    ensures r.None? ==> forall j :: from <= j < |rules| ==> !Matches(rules[j].matcher, req)
    decreases |rules| - from
  {
    if from == |rules| then None
    else if Matches(rules[from].matcher, req) then Some(from)
    else FirstMatch(rules, req, from + 1)
  }

  /** The access level the URL rules give a request. The last rule matches
      every request, so the fallback is never taken (AnyRequestCovered). */
  function UrlAccess(req: Request): (a: Access)
    ensures a == PermitAll <==>
              req.path in [["user", "register"], ["user", "login"], ["error"]] ||
              (req.verb == GET && Under(req.path, ["api"]))
  {
    match FirstMatch(FilterChainRules, req, 0)
    case Some(i) => FilterChainRules[i].access
    case None => Authenticated
  }

  lemma AnyRequestCovered(req: Request)
    ensures FirstMatch(FilterChainRules, req, 0).Some?
  {
    assert Matches(FilterChainRules[2].matcher, req);
  }

  /** Rules are decided by the first match: a request permitted by an
      earlier rule is not subject to a later one, and a request reaching the
      anyRequest() rule matched neither permit rule. */
  lemma FirstMatchDecides(req: Request)
    ensures Matches(FilterChainRules[0].matcher, req) ==> UrlAccess(req) == PermitAll
    ensures !Matches(FilterChainRules[0].matcher, req) && Matches(FilterChainRules[1].matcher, req) ==>
              UrlAccess(req) == PermitAll
    ensures UrlAccess(req) == Authenticated <==>
              !Matches(FilterChainRules[0].matcher, req) && !Matches(FilterChainRules[1].matcher, req)
  {
    var r := FirstMatch(FilterChainRules, req, 0);
    AnyRequestCovered(req);
    if !Matches(FilterChainRules[0].matcher, req) && !Matches(FilterChainRules[1].matcher, req) {
      assert r.value == 2;
    }
  }

  /** The full decision for one request. */
  function Decide(req: Request, who: Option<Identity>): (d: Decision)
    ensures d == Unauthenticated ==> who.None?
    ensures d == Forbidden ==> who.Some?
    ensures d != Allow ==>
              UrlAccess(req) == Authenticated ||
              (Route(req.verb, req.path).Some? &&
               (!ArgumentsResolve(Route(req.verb, req.path).value, req.path) ||
                RequiredAuthority(Route(req.verb, req.path).value).Some?))
    ensures d == BadRequest <==>
              (who.Some? || UrlAccess(req) == PermitAll) &&
              Route(req.verb, req.path).Some? && !ArgumentsResolve(Route(req.verb, req.path).value, req.path)
    ensures who.Some? &&
            (Route(req.verb, req.path).None? ||
             (ArgumentsResolve(Route(req.verb, req.path).value, req.path) &&
              RequiredAuthority(Route(req.verb, req.path).value).None?)) ==>
              d == Allow
  {
    if UrlAccess(req) == Authenticated && who.None? then Unauthenticated
    else
      match Route(req.verb, req.path)
      case None => Allow
      case Some(e) =>
        if !ArgumentsResolve(e, req.path) then BadRequest
        else
          match RequiredAuthority(e)
          case None => Allow
          case Some(a) =>
            if who.None? then Unauthenticated
            else if a in who.value.authorities then Allow
            else Forbidden
  }

  /** The record written for a 403: JwtAccessDeniedHandler's, for exactly
      the denied requests. (The 401 entry point's body is not modelled.) */
  function DenialReply(req: Request, who: Option<Identity>): (r: Option<Errors.ErrorReply>)
    ensures r.Some? <==> Decide(req, who) == Forbidden
    ensures r.Some? ==> r.value.status == Errors.FORBIDDEN && r.value.body.status == Errors.FORBIDDEN
    ensures r.Some? ==> r.value.body.path == UriOf(req.path) && r.value.body.message == "Access Denied"
  {
    if Decide(req, who) == Forbidden then Some(Errors.AccessDenied(UriOf(req.path))) else None
  }

  /** Registration, login and the error page are open to everyone, by any method. */
  lemma PublicUserPaths(req: Request, who: Option<Identity>)
    requires req.path in [["user", "register"], ["user", "login"], ["error"]]
    ensures Decide(req, who) == Allow
  {
    FirstMatchDecides(req);
  }

  /** Every GET under /api is open to everyone: it is never refused for the
      caller's identity, only answered 400 when its id does not convert. */
  lemma PublicApiReads(req: Request, who: Option<Identity>)
    requires req.verb == GET && Under(req.path, ["api"])
    ensures Decide(req, who) == Allow || Decide(req, who) == BadRequest
    ensures Decide(req, who) == BadRequest <==>
              Route(req.verb, req.path).Some? && !ArgumentsResolve(Route(req.verb, req.path).value, req.path)
  {
    FirstMatchDecides(req);
    if Route(req.verb, req.path).Some? {
      ReadsAreUnrestricted(req.verb, req.path);
    }
  }

  /** Anything but GET under /api needs an authenticated caller. */
  lemma ApiWritesNeedIdentity(req: Request)
    requires req.verb != GET && Under(req.path, ["api"])
    ensures UrlAccess(req) == Authenticated
    ensures Decide(req, None) == Unauthenticated
  {
    assert req.path[0] == "api" by { assert req.path[..1] == ["api"]; }
    FirstMatchDecides(req);
  }

  /** A request matching neither permit rule needs an authenticated caller;
      one matching a permit rule is never refused for lack of one unless its
      handler names an authority. */
  lemma UnpermittedNeedsIdentity(req: Request)
    ensures UrlAccess(req) == Authenticated ==> Decide(req, None) == Unauthenticated
    ensures UrlAccess(req) == PermitAll && Decide(req, None) == Unauthenticated ==>
              Route(req.verb, req.path).Some? && RequiredAuthority(Route(req.verb, req.path).value).Some?
  {
  }

  /** The method-level check as an authorize function: for an authenticated
      caller on a restricted handler whose arguments resolve, the request is
      allowed iff the required
      authority is among the caller's, and forbidden otherwise (an empty
      authority list is always forbidden). */
  lemma AuthorizeIff(req: Request, id: Identity)
    requires Route(req.verb, req.path).Some?
    requires ArgumentsResolve(Route(req.verb, req.path).value, req.path)
    requires RequiredAuthority(Route(req.verb, req.path).value).Some?
    ensures var a := RequiredAuthority(Route(req.verb, req.path).value).value;
            && (Decide(req, Some(id)) == Allow <==> a in id.authorities)
            && (Decide(req, Some(id)) == Forbidden <==> a !in id.authorities)
  {
  }

  /** Argument conversion comes before the authority check: an
      authenticated caller whose path variable does not convert gets 400
      whatever authorities it holds, and no 403 record is written. */
  lemma ConversionPrecedesAuthority(req: Request, id: Identity)
    requires Route(req.verb, req.path).Some?
    requires !ArgumentsResolve(Route(req.verb, req.path).value, req.path)
    ensures Decide(req, Some(id)) == BadRequest
    ensures DenialReply(req, Some(id)).None?
  {
  }

  /** The category-delete request for an id segment that converts to an
      Integer: routed to deleteCategory, its arguments resolve, the URL
      rules demand authentication, and its URI is the one the client wrote. */
  lemma CategoryDeleteRequest(seg: string)
    requires ConvertsTo(seg, JavaInteger)
    ensures Route(DELETE, ["api", "categories", seg]) == Some(DeleteCategory)
    ensures ArgumentsResolve(DeleteCategory, ["api", "categories", seg])
    ensures UrlAccess(Request(DELETE, ["api", "categories", seg])) == Authenticated
    ensures UriOf(["api", "categories", seg]) == "/api/categories/" + seg
  {
    var path := ["api", "categories", seg];
    RouteFindsMapping(DELETE, path, DeleteCategory);
    assert path[|path| - 1] == seg;
    assert Under(path, ["api"]) by { assert path[..1] == ["api"]; }
    ApiWritesNeedIdentity(Request(DELETE, path));
    UriOfThree("api", "categories", seg);
  }

  /** The product-create request: routed to createProduct and behind the
      authenticated() rule. */
  lemma ProductCreateRequest()
    ensures Route(POST, ["api", "products"]) == Some(CreateProduct)
    ensures UrlAccess(Request(POST, ["api", "products"])) == Authenticated
  {
    var post := Request(POST, ["api", "products"]);
    RouteFindsMapping(POST, post.path, CreateProduct);
    assert Under(post.path, ["api"]) by { assert post.path[..1] == ["api"]; }
    ApiWritesNeedIdentity(post);
  }

  /** A caller holding only ROLE_SELLER may create a product (which then
      answers 201) but is refused deletion of category `seg` with the 403
      "Access Denied" record. */
  lemma SellerGate(name: string, seg: string)
    requires ConvertsTo(seg, JavaInteger)
    ensures var seller := Some(Identity(name, ["ROLE_SELLER"]));
            var del := Request(DELETE, ["api", "categories", seg]);
            && Decide(Request(POST, ["api", "products"]), seller) == Allow
            && SuccessStatus(Route(POST, ["api", "products"]).value) == Errors.CREATED
            && Decide(del, seller) == Forbidden
            && DenialReply(del, seller) == Some(Errors.AccessDenied("/api/categories/" + seg))
  {
    ProductCreateRequest();
    CategoryDeleteRequest(seg);
  }

  /** A caller holding only ROLE_ADMIN is refused product creation and may
      delete category `seg`. */
  lemma AdminGate(name: string, seg: string)
    requires ConvertsTo(seg, JavaInteger)
    ensures var admin := Some(Identity(name, ["ROLE_ADMIN"]));
            && Decide(Request(POST, ["api", "products"]), admin) == Forbidden
            && Decide(Request(DELETE, ["api", "categories", seg]), admin) == Allow
  {
    ProductCreateRequest();
    CategoryDeleteRequest(seg);
  }

  /** The two gates side by side, on an int id as the client writes it: a
      caller holding only ROLE_SELLER may create a product (which then
      answers 201) but is refused category deletion with the 403 "Access
      Denied" record; an ADMIN-only caller is the mirror image. */
  lemma SellerAndAdminGates(name: string, id: int)
    requires Text.IntMin <= id <= Text.IntMax
    ensures var seller := Some(Identity(name, ["ROLE_SELLER"]));
            var del := Request(DELETE, ["api", "categories", Text.IntToDecimal(id)]);
            && Decide(Request(POST, ["api", "products"]), seller) == Allow
            && SuccessStatus(Route(POST, ["api", "products"]).value) == Errors.CREATED
            && Decide(del, seller) == Forbidden
            && DenialReply(del, seller) == Some(Errors.AccessDenied("/api/categories/" + Text.IntToDecimal(id)))
    ensures var admin := Some(Identity(name, ["ROLE_ADMIN"]));
            && Decide(Request(POST, ["api", "products"]), admin) == Forbidden
            && Decide(Request(DELETE, ["api", "categories", Text.IntToDecimal(id)]), admin) == Allow
  {
    Text.ParseRendersBack(id);
    SellerGate(name, Text.IntToDecimal(id));
    AdminGate(name, Text.IntToDecimal(id));
  }
}

=== FILE: tables.dfy ===
/** Tables held as maps from id to row, and the one traversal the services
    make of them. */
module Tables {

  /** A set of ids with no member is the empty set (extensionality): a
      proof helper for the listing loop, not a property of the program. */
  lemma EmptyByExtension(s: set<int>)
    ensures (forall x :: x !in s) ==> s == {}
  {
    if forall x :: x !in s {
      assert s == {};
    }
  }

  /** repository.findAll().stream().map(f).toList(): one mapped entry per
      row. The order of findAll is the database's and is left open; `ids`
      reports it, so entry i is the image of row ids[i], and every row is
      listed exactly once. */
  method ListAll<V, R>(rows: map<int, V>, f: V -> R) returns (rs: seq<R>, ids: seq<int>)
    ensures |rs| == |ids| == |rows|
    ensures forall i :: 0 <= i < |ids| ==> ids[i] in rows && rs[i] == f(rows[ids[i]])
    ensures forall i, j :: 0 <= i < j < |ids| ==> ids[i] != ids[j]
    ensures forall k :: k in rows ==> k in ids
  {
    ids := [];
    var todo := rows.Keys;
    while todo != {}
      invariant todo <= rows.Keys
      invariant |ids| + |todo| == |rows|
      invariant forall k :: k in rows ==> (k in ids <==> k !in todo)
      invariant forall i :: 0 <= i < |ids| ==> ids[i] in rows
      invariant forall i, j :: 0 <= i < j < |ids| ==> ids[i] != ids[j]
      decreases todo
    {
      EmptyByExtension(todo);
      var k :| k in todo;
      ids := ids + [k];
      todo := todo - {k};
    }
    rs := seq(|ids|, i requires 0 <= i < |ids| && ids[i] in rows => f(rows[ids[i]]));
  }
}

=== FILE: text.dfy ===
/** Decimal text of integers, both ways: rendering, as Java's string
    concatenation does for an `Integer` operand (Integer.toString), and
    parsing, as Integer.valueOf and Long.valueOf do when Spring converts a
    path variable. Also the ranges of Java's `int` and `long`, and Java's
    notion of whitespace. */
module Text {

  import opened Wrappers

  const IntMin: int := -0x8000_0000
  const IntMax: int := 0x7fff_ffff
  const LongMin: int := -0x8000_0000_0000_0000
  const LongMax: int := 0x7fff_ffff_ffff_ffff

  function DigitChar(d: nat): (c: char)
    requires d < 10
    ensures IsDigit(c) && DigitValue(c) == d
  {
    "0123456789"[d]
  }

  predicate IsDigit(c: char) {
    '0' <= c <= '9'
  }

  function DigitValue(c: char): nat
    requires IsDigit(c)
  {
    c as int - '0' as int
  }

  predicate AllDigits(s: string) {
    forall i :: 0 <= i < |s| ==> IsDigit(s[i])
  }

  /** The number a string of decimal digits denotes, most significant first. */
  function DigitsValue(s: string): nat
    requires AllDigits(s)
    decreases |s|
  {
    if s == [] then 0 else 10 * DigitsValue(s[..|s| - 1]) + DigitValue(s[|s| - 1])
  }

  /** Shortest decimal form of a natural number: digits only, no leading
      zero, denoting exactly n. */
  function NatToDecimal(n: nat): (s: string)
    ensures |s| > 0 && AllDigits(s)
    ensures |s| > 1 ==> s[0] != '0'
    ensures DigitsValue(s) == n
    decreases n
  {
    if n < 10 then [DigitChar(n)]
    else
      var s := NatToDecimal(n / 10) + [DigitChar(n % 10)];
      assert s[..|s| - 1] == NatToDecimal(n / 10);
      s
  }

  /** Integer.toString: a leading '-' for negative values, then the shortest
      digits of the magnitude. */
  function IntToDecimal(i: int): (s: string)
    ensures |s| > 0
    ensures (s[0] == '-') <==> i < 0
    ensures i < 0 ==> |s| > 1 && AllDigits(s[1..]) && s[1] != '0' && DigitsValue(s[1..]) == -i
    ensures i >= 0 ==> AllDigits(s) && DigitsValue(s) == i && (|s| > 1 ==> s[0] != '0')
  {
    if i < 0 then
      var d := NatToDecimal(-i);
      assert ("-" + d)[1..] == d;
      "-" + d
    else NatToDecimal(i)
  }

  /** Integer.parseInt/Long.parseLong without the range check: an optional
      '-' or '+' followed by at least one decimal digit, and nothing else. */
  function ParseDecimal(s: string): (r: Option<int>)
    ensures r.Some? <==>
              (|s| > 0 && AllDigits(s)) || (|s| > 1 && (s[0] == '-' || s[0] == '+') && AllDigits(s[1..]))
    ensures r.Some? && s[0] == '-' ==> r.value == -(DigitsValue(s[1..]) as int)
    ensures r.Some? && s[0] != '-' ==> r.value >= 0
    ensures r.Some? && s[0] != '-' ==> r.value == DigitsValue(if s[0] == '+' then s[1..] else s)
  {
    if |s| > 1 && s[0] == '-' && AllDigits(s[1..]) then Some(-(DigitsValue(s[1..]) as int))
    else if |s| > 1 && s[0] == '+' && AllDigits(s[1..]) then Some(DigitsValue(s[1..]))
    else if |s| > 0 && AllDigits(s) then Some(DigitsValue(s))
    else None
  }

  /** Parsing reads back exactly what rendering wrote. */
  lemma ParseRendersBack(i: int)
    ensures ParseDecimal(IntToDecimal(i)) == Some(i)
  {
    var s := IntToDecimal(i);
    if i >= 0 {
      assert !IsDigit('-') && !IsDigit('+');
      assert s[0] != '-' && s[0] != '+';
    }
  }

  /** Character.isWhitespace: the Unicode space, line and paragraph
      separators other than the no-break spaces (U+00A0, U+2007, U+202F),
      plus U+0009..U+000D and U+001C..U+001F. */
  predicate IsJavaWhitespace(c: char) {
    var n := c as int;
    || 0x09 <= n <= 0x0D || 0x1C <= n <= 0x1F || n == 0x20
    || n == 0x1680 || 0x2000 <= n <= 0x2006 || 0x2008 <= n <= 0x200A
    || n == 0x2028 || n == 0x2029 || n == 0x205F || n == 0x3000
  }

  /** Strings.hasText as JJWT writes it: some character is not whitespace. */
  predicate HasText(s: string) {
    exists i :: 0 <= i < |s| && !IsJavaWhitespace(s[i])
  }

  /** Conversion of a path variable to an `Integer` (lo, hi = IntMin, IntMax)
      or a `Long` (LongMin, LongMax): the parse must succeed and land in range. */
  predicate ConvertsWithin(s: string, lo: int, hi: int) {
    ParseDecimal(s).Some? && lo <= ParseDecimal(s).value <= hi
  }
}

=== FILE: userapi.dfy ===
/** UserController: registration and login, each ending in a freshly issued
    token. The authorities a principal reports come from UserPrincipal,
    which is not part of this model; they are the parameter `authorities`.
    The key is the process key, `salt` stands for BCrypt's random salt, and
    `issueClock`/`expiryClock` are the two clock readings generateToken takes. */
module UserApi {

  import opened Wrappers
  import opened Errors
  import opened Users
  import Jwt
  import Text

  /** A ResponseEntity<UserResponseDTO>. */
  datatype Reply = Reply(status: int, body: UserResponse)

  /** The default the controller puts in when registration returned no roles. */
  function WithDefaultRoles(resp: UserResponse): (r: UserResponse)
    ensures resp.roles.None? || resp.roles.value == [] ==> r.roles == Some(["ROLE_SELLER"])
    ensures resp.roles.Some? && resp.roles.value != [] ==> r == resp
    ensures r.(roles := resp.roles) == resp
  {
    if resp.roles.None? || |resp.roles.value| == 0 then resp.(roles := Some(["ROLE_SELLER"])) else resp
  }

  /** POST /user/register. */
  function Register(s: UserStore, key: Jwt.Key, dto: UserRequest, salt: nat,
                    authorities: User -> seq<string>, issueClock: nat, expiryClock: nat)
    : (r: Result<(UserStore, Reply), AppException>)
    ensures r.Err? <==> dto.username in s.byName
    ensures r.Ok? ==> r.value.0 == RegisterUser(s, Some(dto), salt).value.0
    ensures r.Ok? ==> dto.username in r.value.0.byName
    ensures r.Ok? ==>
              var (s', reply) := r.value;
              var stored := s'.byName[dto.username];
              && reply.status == CREATED
              && reply.body.id == stored.id
              && reply.body.username == dto.username
              && reply.body.roles == Some(authorities(stored))
              && reply.body.token == Some(Jwt.GenerateToken(key, stored.username, authorities(stored),
                                                            issueClock, expiryClock))
  {
    var (s', registered) :- RegisterUser(s, Some(dto), salt);
    var resp := WithDefaultRoles(registered);
    match LoadUserByUsername(s', resp.username)
    case Err(e) => Err(e)
    case Ok(principal) =>
      var roles := authorities(principal.user);
      var token := Jwt.GenerateToken(key, principal.Name(), roles, issueClock, expiryClock);
      Ok((s', Reply(CREATED, resp.(token := Some(token), roles := Some(roles)))))
  }

  /** POST /user/login. No token is issued unless authentication succeeds;
      the failure is the same for an unknown user and a wrong password. */
  function Login(s: UserStore, key: Jwt.Key, dto: UserRequest,
                 authorities: User -> seq<string>, issueClock: nat, expiryClock: nat)
    : (r: Result<Reply, AppException>)
    ensures Authenticate(s, dto.username, dto.password).Err? ==>
              r == Err(AppException(BadCredentials, "Bad credentials"))
    ensures r.Ok? ==>
              && Authenticate(s, dto.username, dto.password).Ok?
              && var user := s.byName[dto.username];
                 && user.username in s.byName
                 && r.value.status == OK
                 && r.value.body.id == s.byName[user.username].id
                 && r.value.body.username == user.username
                 && r.value.body.roles == Some(authorities(user))
                 && r.value.body.token == Some(Jwt.GenerateToken(key, user.username, authorities(user),
                                                                 issueClock, expiryClock))
  {
    var authentication :- Authenticate(s, dto.username, dto.password);
    var roles := authorities(authentication.user);
    var token := Jwt.GenerateToken(key, authentication.Name(), roles, issueClock, expiryClock);
    var user :- GetUserEntityByUsername(s, authentication.Name());
    Ok(Reply(OK, UserResponse(user.id, authentication.Name(), Some(token), Some(roles))))
  }

  /** On a well-formed store, login succeeds exactly for the right password,
      and the token it returns carries the user's authorities and names the
      user, unless the name is blank, in which case it names no one. */
  lemma LoginSucceedsIffPasswordMatches(s: UserStore, key: Jwt.Key, dto: UserRequest,
                                        authorities: User -> seq<string>, issueClock: nat, expiryClock: nat)
    requires Valid(s)
    ensures var r := Login(s, key, dto, authorities, issueClock, expiryClock);
            && (r.Ok? <==> dto.username in s.byName && Matches(dto.password, s.byName[dto.username].password))
            && (r.Ok? ==> r.value.body.username == dto.username
                          && r.value.body.id == s.byName[dto.username].id
                          && (r.value.body.token.value.claims.subject.Some? <==> Text.HasText(dto.username))
                          && (Text.HasText(dto.username) ==>
                                r.value.body.token.value.claims.subject == Some(dto.username))
                          && r.value.body.token.value.claims.roles == authorities(s.byName[dto.username]))
  {
    if Authenticate(s, dto.username, dto.password).Ok? {
      assert s.byName[dto.username].username == dto.username;
    }
  }

  /** The authority derivation the rest of the application assumes: a user
      with a role holds exactly "ROLE_" + its name, as UserMapper reports it. */
  function RoleAuthorities(u: User): seq<string> {
    if u.role.Some? then [AuthorityOf(u.role.value)] else []
  }

  /** Registration then login: a registered user logs in with their
      password; with the role authorities, a request without a role yields
      the SELLER authority; and, for a name with a non-whitespace character,
      the login token validates for the user for just under two minutes
      after its expiry clock reading, while for a blank name validation
      throws on the token's missing subject. */
  lemma RegisterThenLogin(s: UserStore, key: Jwt.Key, dto: UserRequest, salt: nat,
                          t1: nat, t2: nat, t3: nat, t4: nat,
                          subjectClock: nat, parseClock: nat, now: nat)
    requires Valid(s) && dto.username !in s.byName
    requires subjectClock <= parseClock <= now <= t4 + Jwt.ExpirationMillis - Jwt.MillisPerSecond
    ensures var reg := Register(s, key, dto, salt, RoleAuthorities, t1, t2);
            && reg.Ok?
            && (dto.role.None? ==> reg.value.1.body.roles == Some(["ROLE_SELLER"]))
            && var login := Login(reg.value.0, key, dto, RoleAuthorities, t3, t4);
               && login.Ok?
               && login.value.body.roles == reg.value.1.body.roles
               && (Text.HasText(dto.username) ==>
                     Jwt.ValidateToken(key, login.value.body.token.value, dto.username,
                                       subjectClock, parseClock, now) == Ok(true))
               && (!Text.HasText(dto.username) ==>
                     Jwt.ValidateToken(key, login.value.body.token.value, dto.username,
                                       subjectClock, parseClock, now) == Err(Jwt.NullSubject))
  {
    var reg := Register(s, key, dto, salt, RoleAuthorities, t1, t2);
    var s' := reg.value.0;
    assert AuthorityOf(SELLER) == "ROLE_SELLER";
    RegisterPreservesValid(s, Some(dto), salt);
    RegisteredUserAuthenticates(s, dto, salt, dto.password);
    LoginSucceedsIffPasswordMatches(s', key, dto, RoleAuthorities, t3, t4);
    Jwt.IssuedTokenValidity(key, dto.username, RoleAuthorities(s'.byName[dto.username]), t3, t4,
                            subjectClock, parseClock, now);
  }
}

=== FILE: users.dfy ===
/** Accounts: the role enumeration, the user entity and its DTOs, UserMapper,
    the user store behind UserRepository, the two lookups of
    CustomUserDetailsService, registration in MyUserDetailsServiceImpl, and
    the username/password check that SecurityConfig wires from that lookup
    and the BCrypt encoder.

    Java null is Option.None. The User entity, UserPrincipal and the user
    repository are not part of this model; the store is a map keyed by
    username, the index the repository's findByUsername relies on. */
module Users {

  import opened Wrappers
  import opened Errors
  import Jwt

  /** The closed role set: Role.SELLER is the default, and the authority
      strings ROLE_ADMIN and ROLE_SELLER name the other values used. */
  datatype Role = ADMIN | SELLER

  /** Enum.name(). */
  function RoleName(r: Role): string {
    match r
    case ADMIN => "ADMIN"
    case SELLER => "SELLER"
  }

  /** The authority string a role is reported under. */
  function AuthorityOf(r: Role): string {
    "ROLE_" + RoleName(r)
  }

  /** A BCrypt hash, abstracted as the salt drawn for it and the password it
      was computed from. All the model relies on is that encoding is
      one-to-one in the password and that matching recomputes it. */
  datatype BCryptHash = BCryptHash(salt: nat, secret: string)

  /** The entity's password column: the submitted text until it is encoded. */
  datatype Password = Plain(text: string) | Encoded(hash: BCryptHash)

  /** BCryptPasswordEncoder.encode with a random salt supplied by the caller. */
  function Encode(raw: string, salt: nat): BCryptHash {
    BCryptHash(salt, raw)
  }

  /** BCryptPasswordEncoder.matches: a stored value that is not a BCrypt
      hash never matches. */
  predicate Matches(raw: string, stored: Password) {
    stored.Encoded? && stored.hash.secret == raw
  }

  /** The password check is exact: it succeeds iff the stored value is an
      encoding, under some salt, of the submitted password. */
  lemma MatchesIffEncodedFrom(raw: string, stored: Password)
    ensures Matches(raw, stored) <==> exists salt: nat :: stored == Encoded(Encode(raw, salt))
  {
    if Matches(raw, stored) {
      assert stored == Encoded(Encode(raw, stored.hash.salt));
    }
  }

  datatype User = User(id: Option<int>, username: string, password: Password, role: Option<Role>)

  datatype UserRequest = UserRequest(username: string, password: string, role: Option<Role>)

  datatype UserResponse = UserResponse(id: Option<int>, username: string,
                                       token: Option<Jwt.Token>, roles: Option<seq<string>>)

  /** UserMapper.toEntity: copies the credentials and defaults the role. */
  function ToEntity(dto: Option<UserRequest>): (u: Option<User>)
    ensures u.None? <==> dto.None?
    ensures dto.Some? ==>
              && u.value.id.None?
              && u.value.username == dto.value.username
              && u.value.password == Plain(dto.value.password)
              && u.value.role.Some?
              && (dto.value.role.Some? ==> u.value.role == dto.value.role)
              && (dto.value.role.None? ==> u.value.role == Some(SELLER))
  {
    match dto
    case None => None
    case Some(d) =>
      Some(User(None, d.username, Plain(d.password), Some(if d.role.Some? then d.role.value else SELLER)))
  }

  /** UserMapper.toResponseDTO: id and username copied, token unset, and the
      role reported as the one-element authority list. */
  function ToResponseDto(user: Option<User>): (r: Option<UserResponse>)
    ensures r.None? <==> user.None?
    ensures user.Some? ==>
              && r.value.id == user.value.id
              && r.value.username == user.value.username
              && r.value.token.None?
              && (user.value.role.None? ==> r.value.roles.None?)
              && (user.value.role.Some? ==> r.value.roles == Some([AuthorityOf(user.value.role.value)]))
  {
    match user
    case None => None
    case Some(u) =>
      Some(UserResponse(u.id, u.username, None,
                        if u.role.Some? then Some(["ROLE_" + RoleName(u.role.value)]) else None))
  }

  /** The persisted users, and the next identity value the database hands out. */
  datatype UserStore = UserStore(byName: map<string, User>, nextId: int)

  /** What every stored user satisfies once saved through registration:
      filed under its own name, with a distinct generated id, a role and an
      encoded (never plain) password. */
  ghost predicate Valid(s: UserStore) {
    && (forall n :: n in s.byName ==>
          && s.byName[n].username == n
          && s.byName[n].id.Some? && s.byName[n].id.value < s.nextId
          && s.byName[n].role.Some?
          && s.byName[n].password.Encoded?)
    && (forall n, m :: n in s.byName && m in s.byName && s.byName[n].id == s.byName[m].id ==> n == m)
  }

  /** userRepository.save of a new entity: the database generates the id;
      a second user under an existing username violates the unique index. */
  function Save(s: UserStore, u: User): (r: Result<(UserStore, User), AppException>)
    ensures r.Err? <==> u.username in s.byName
    ensures r.Ok? ==>
              && r.value.1 == u.(id := Some(s.nextId))
              && r.value.0 == UserStore(s.byName[u.username := r.value.1], s.nextId + 1)
  {
    if u.username in s.byName then Err(AppException(DataIntegrityViolation, ""))
    else
      var saved := u.(id := Some(s.nextId));
      Ok((UserStore(s.byName[u.username := saved], s.nextId + 1), saved))
  }

  /** The UserDetails object handed to Spring: it wraps the stored user. */
  datatype Principal = Principal(user: User) {
    function Name(): string {
      user.username
    }
  }

  /** CustomUserDetailsService.loadUserByUsername. Read-only: there is no
      store in the result. */
  function LoadUserByUsername(s: UserStore, username: string): (r: Result<Principal, AppException>)
    ensures r.Err? <==> username !in s.byName
    ensures r.Err? ==> r.error == AppException(UsernameNotFound, "Username not found")
    ensures r.Ok? ==> r.value.user == s.byName[username]
  {
    if username !in s.byName then Err(AppException(UsernameNotFound, "Username not found"))
    else Ok(Principal(s.byName[username]))
  }

  /** CustomUserDetailsService.getUserEntityByUsername. Read-only. */
  function GetUserEntityByUsername(s: UserStore, username: string): (r: Result<User, AppException>)
    ensures r.Err? <==> username !in s.byName
    ensures r.Err? ==> r.error == AppException(UserNotFound, "User not found")
    ensures r.Ok? ==> r.value == s.byName[username]
  {
    if username !in s.byName then Err(AppException(UserNotFound, "User not found"))
    else Ok(s.byName[username])
  }

  /** MyUserDetailsServiceImpl.registerUser: map the request, replace the
      password by its encoding under `salt`, save, map the saved entity. */
  function RegisterUser(s: UserStore, dto: Option<UserRequest>, salt: nat): (r: Result<(UserStore, UserResponse), AppException>)
    ensures dto.None? ==> r.Err? && r.error.kind == NullPointer
    ensures dto.Some? ==> (r.Err? <==> dto.value.username in s.byName)
    ensures r.Ok? ==> dto.Some? && dto.value.username in r.value.0.byName
    ensures r.Ok? ==>
              var d := dto.value;
              var saved := r.value.0.byName[d.username];
              && r.value.0.byName == s.byName[d.username := saved]
              && |r.value.0.byName| == |s.byName| + 1
              && saved.id == Some(s.nextId)
              && saved.password == Encoded(Encode(d.password, salt))
              && saved.role == Some(if d.role.Some? then d.role.value else SELLER)
              && r.value.1.id == saved.id
              && r.value.1.username == d.username
              && r.value.1.token.None?
              && r.value.1.roles == Some([AuthorityOf(saved.role.value)])
  {
    match ToEntity(dto)
    case None => Err(AppException(NullPointer, ""))
    case Some(user) =>
      var encoded := user.(password := Encoded(Encode(user.password.text, salt)));
      var (s', saved) :- Save(s, encoded);
      Ok((s', ToResponseDto(Some(saved)).value))
  }

  /** Registration keeps every stored user well-formed. */
  lemma RegisterPreservesValid(s: UserStore, dto: Option<UserRequest>, salt: nat)
    requires Valid(s)
    ensures RegisterUser(s, dto, salt).Ok? ==> Valid(RegisterUser(s, dto, salt).value.0)
  {
    var r := RegisterUser(s, dto, salt);
    if r.Ok? {
      var s' := r.value.0;
      var d := dto.value;
      assert s'.nextId == s.nextId + 1;
      forall n, m | n in s'.byName && m in s'.byName && s'.byName[n].id == s'.byName[m].id
        ensures n == m
      {
        if n != d.username && m != d.username {
          assert s'.byName[n] == s.byName[n] && s'.byName[m] == s.byName[m];
        }
      }
    }
  }

  /** The DaoAuthenticationProvider that SecurityConfig builds from
      loadUserByUsername and the BCrypt encoder: an unknown user and a wrong
      password fail with the same BadCredentialsException, so the caller
      cannot tell which it was. */
  function Authenticate(s: UserStore, username: string, password: string): (r: Result<Principal, AppException>)
    ensures r.Ok? <==> username in s.byName && Matches(password, s.byName[username].password)
    ensures r.Ok? ==> r.value.user == s.byName[username]
    ensures r.Err? ==> r.error == AppException(BadCredentials, "Bad credentials")
  {
    match LoadUserByUsername(s, username)
    case Err(_) => Err(AppException(BadCredentials, "Bad credentials"))
    case Ok(principal) =>
      if Matches(password, principal.user.password) then Ok(principal)
      else Err(AppException(BadCredentials, "Bad credentials"))
  }

  /** A user just registered can log in with the password they registered,
      and with no other. */
  lemma RegisteredUserAuthenticates(s: UserStore, d: UserRequest, salt: nat, attempt: string)
    requires RegisterUser(s, Some(d), salt).Ok?
    ensures Authenticate(RegisterUser(s, Some(d), salt).value.0, d.username, attempt).Ok? <==> attempt == d.password
  {
    var s' := RegisterUser(s, Some(d), salt).value.0;
    assert s'.byName[d.username].password == Encoded(Encode(d.password, salt));
  }
}

=== FILE: wrappers.dfy ===
/** Option and Result, the model's stand-ins for Java's null and for thrown
    exceptions. Result is failure-compatible, so `:-` propagates an error the
    way an uncaught exception propagates out of a Java method. */
module Wrappers {

  datatype Option<+T> = None | Some(value: T)

  datatype Result<+T, +E> = Ok(value: T) | Err(error: E) {

    predicate IsFailure() {
      Err?
    }

    function PropagateFailure<U>(): Result<U, E>
      requires Err?
    {
      Err(error)
    }

    function Extract(): T
      requires Ok?
    {
      value
    }
  }
}
